=== FILE: README.md ===
# Smart School decision logic, in Dafny

Smart School is a Next.js dashboard for a private school: students and their
balances, staff and their positions, attendance of hourly staff, tests,
expenses and user accounts. Most of its logic lives in small pure decisions
inside the dialogs, cards and menus. The staff page's salary figure and the
student page's next payment deadline are computed on those pages; they are
outside the modelled dialogs (see "Left out"). This project models the dialog,
card and menu decisions as immutable datatypes and pure functions
and proves what the screens promise about them:

- **Attendance**: the hours editor of one staff member. It takes this month's
  records, sorts them by date, hides zero-hour days, and merges edits back
  into the stored records (`EditHours`). The daily sheet for hourly staff is
  built from each person's weekly schedule, picked by the Monday-first weekday
  index of the chosen date (`AttendanceRoster`, `Dates`).
- **Staff forms**: the edit form's branching on the position type, with the
  salary falling back to the position rate, and the add form (`StaffForms`).
- **Rankings**: the five largest debtors and the five latest enrolments
  (`Dashboard`, on a stable sort in `Sorting`). Also the distinct sorted grade
  lists (`GradeLists`), the per-grade score roster and the month options of
  the test dialog (`TestResults`), and the balance and status badges of the
  student table (`StudentTable`).
- **Translation**: the nested-key lookup `t` that falls back to English and
  then to the key itself (`I18n`).
- **Auth**: sign-in with two fixed accounts, sign-out, and the login page's
  outcome (`Auth`).
- **Navigation**: the header title, the sub-page test, link highlighting, and
  the role-gated links of the header, both sidebars and the staff row menu
  (`Navigation`).
- **Other forms**: the remaining form schemas as predicates over parsed
  values, plus what each submit hands to its page (`Forms`). The pages' by-id
  updates of users and positions are modelled too.

Shared pieces:

- `Wrappers`: `Option` stands in for `null` and `undefined`.
- `Entities`: the records of `src/lib/types.ts`, plus the optional fields the
  dialogs read although the type file omits them.
- `Decimal`: decimal digit strings.
- `Dates`: civil dates, day numbers, weekdays and `YYYY-MM-DD` text.

Hours are counted in half-hours, the step of the hours inputs, so 24 hours is
`MaxDayHalfHours = 48`. Money is in whole so'm.

## Model

| member | source | states |
|---|---|---|
| Dates.MonthLength | src/components/dialogs/edit-hours-dialog.tsx:72-73 | a month has 28 to 31 days, and February has 29 exactly in a leap year, as the calendar behind `new Date(a.date)` has it |
| Dates.NextDay | src/components/dialogs/add-attendance-dialog.tsx:75-77 | the day after a calendar date is again a calendar date |
| Dates.NextDayNumber | src/components/dialogs/edit-hours-dialog.tsx:74 | consecutive calendar days have consecutive day numbers, so the day number that `getTime()` orders by has no gaps and no repeats |
| Dates.JsWeekDay | src/components/dialogs/add-attendance-dialog.tsx:78 | `getDay()` lies in 0..6 |
| Dates.MondayIndex | src/components/dialogs/add-attendance-dialog.tsx:78-80 | `(getDay() + 6) % 7` lies in 0..6; it is 0 exactly on a Monday and 6 exactly on a Sunday; `getDay()` is recovered as `(index + 1) % 7` |
| Dates.MondayIndexStep | src/components/dialogs/add-attendance-dialog.tsx:78-80 | from each day to the next, the index advances by one, cyclically |
| Dates.KnownWeekDays | src/components/dialogs/add-attendance-dialog.tsx:79-80 | 1970-01-01 is a Thursday, 2024-06-17 a Monday, 2024-06-23 a Sunday and 2000-02-29 a Tuesday |
| Dates.LocalConstruct | src/components/dialogs/add-attendance-dialog.tsx:75-77 | `new Date(getUTCFullYear(), getUTCMonth(), getUTCDate())` rebuilds the same date, except that a year in 0..99 becomes 1900 + year, counting the day from the first of that month, so a leap day that year lacks rolls into March |
| Dates.TwoDigitYears | src/components/dialogs/add-attendance-dialog.tsx:75-80 | 0050-01-01, a Saturday, is looked up as 1950-01-01, a Sunday; 0000-02-29 becomes 1900-03-01, a Thursday |
| Dates.FormatIso | src/components/dialogs/add-expense-dialog.tsx:47 | `toISOString().split("T")[0]` is ten characters long |
| Dates.ParseIso | src/components/dialogs/add-attendance-dialog.tsx:75-77 | text that reads as a date reads as a calendar date with a four-digit year |
| Dates.ParseFormatIso | src/components/dialogs/add-attendance-dialog.tsx:61 | parsing the formatted text of a date gives that date back |
| Dates.FormatParseIso | src/components/dialogs/add-attendance-dialog.tsx:75-77 | a text that parses is exactly the formatted text of its date: the parse loses nothing |
| Decimal.NatToString | src/components/dialogs/add-test-result-dialog.tsx:140 | `g.toString()` is a digit string without a leading zero |
| Decimal.ParsePadDigits | src/components/dialogs/add-expense-dialog.tsx:47 | reading a zero-padded number gives the number back |
| Decimal.PadParseDigits | src/components/dialogs/add-attendance-dialog.tsx:75 | padding the number a digit string reads as gives the string back |
| Decimal.ParseNatToString | src/components/dialogs/add-test-result-dialog.tsx:89 | `parseInt(g.toString(), 10)` is `g` |
| Sorting.Filter | src/components/dashboard/top-debtors.tsx:47 | `filter` keeps only elements that satisfy the predicate, and no more of them than there were |
| Sorting.FilterCounts | src/components/dashboard/top-debtors.tsx:47 | each satisfying element is kept as often as it occurs, and nothing else is kept |
| Sorting.FilterMembers | src/components/dashboard/top-debtors.tsx:47 | an element is kept exactly when it occurs and satisfies the predicate |
| Sorting.FilterAppend | src/components/dialogs/add-attendance-dialog.tsx:82-88 | filtering distributes over concatenation, so the kept elements stay in input order |
| Sorting.FilterSorted | src/components/dialogs/edit-hours-dialog.tsx:74-78 | filtering a sorted list keeps it sorted |
| Sorting.FilterNone | src/components/dialogs/add-attendance-dialog.tsx:84-88 | a predicate nothing satisfies keeps nothing |
| Sorting.Insert | src/components/dashboard/top-debtors.tsx:48 | inserting into a sorted list keeps it sorted and adds exactly the new element |
| Sorting.SortBy | src/components/dashboard/top-debtors.tsx:48 | `sort` by a numeric key returns a permutation of its input in ascending key order |
| Sorting.InsertAfterEqualKeys | src/components/dashboard/top-debtors.tsx:48 | inserting an element places it after every element with the same key, so among equal keys the inserted one comes last |
| Sorting.SortByStable | src/components/dashboard/top-debtors.tsx:48 | the sort is stable: for every key, the elements with that key come out in their input order, as JavaScript's `Array.prototype.sort` keeps elements its comparator calls equal |
| Sorting.SortedPermutationUnique | src/components/dashboard/top-debtors.tsx:48 | a sorted permutation of a list with strictly increasing keys is that list: distinct keys fix the sort's result |
| Sorting.Take | src/components/dashboard/top-debtors.tsx:49 | `slice(0, k)` is a prefix of length `min(k, n)` |
| Sorting.TakeSortedIsLeast | src/components/dashboard/top-debtors.tsx:48-49 | the first `k` of a sorted list are sorted and drawn from it, and every element left out has a key no smaller than any kept one |
| Sorting.TakeOfSortedFilter | src/components/dashboard/top-debtors.tsx:46-49 | filter, sort, then slice gives satisfying elements drawn from the input |
| Dashboard.TopDebtors | src/components/dashboard/top-debtors.tsx:46-49 | at most five students, all with a negative balance, ordered from the largest debt, drawn from the input |
| Dashboard.TopDebtorsAreLargest | src/components/dashboard/top-debtors.tsx:46-49 | a debtor left out owes no more than any listed one; with fewer than five debtors all of them are listed |
| Dashboard.RecentStudents | src/components/dashboard/recent-students.tsx:47-49 | when every student has a readable enrolment date: at most five, latest first, drawn from the input, all of them when there are at most five. When none has one, every comparison is NaN and counts as equal, so the first five in input order. A mix has no defined order |
| Dashboard.RecentStudentsAreLatest | src/components/dashboard/recent-students.tsx:47-49 | with every date readable, a student left out enrolled no later than any listed one, and with at most five students the list is a permutation of them |
| Dashboard.AnyEngineOrder | src/components/dashboard/recent-students.tsx:47-49 | whatever permutation the engine sorts into, the card shows at most five students drawn from the input, and all of them when there are at most five |
| Dashboard.SeedTopDebtors | src/lib/data.ts:37-116 | on the seed students the card lists Ethan Davis −700, Charlie Brown −300, Alice Johnson −150 and Hannah Lewis −50 |
| Dashboard.SeedRecentStudents | src/lib/data.ts:37-116 | no seed student has an enrolment date, so the recent card shows Alice Johnson, Bob Williams, Charlie Brown, Diana Miller and Ethan Davis, in seed order |
| Dashboard.SeedRanking | src/components/dashboard/top-debtors.tsx:46-49 | eight students with the seed's balance signs and debts are listed fifth, third, first, eighth |
| Dashboard.SortFourDistinct | src/components/dashboard/top-debtors.tsx:48 | four elements with distinct keys sort into key order |
| Dashboard.SeedDebtorsFiltered | src/components/dashboard/top-debtors.tsx:47 | the debtor filter over the seed's balance pattern keeps the first, third, fifth and eighth students |
| EditHours.MonthRecordsMembers | src/components/dialogs/edit-hours-dialog.tsx:90-94 | a record is in the month's list exactly when it is this staff member's and dated in today's month and year |
| EditHours.RowsOf | src/components/dialogs/edit-hours-dialog.tsx:76-77 | one row per record, in order; missing hours show as 0 |
| EditHours.ShownRows | src/components/dialogs/edit-hours-dialog.tsx:68-83 | nothing is shown when the editor is closed or has no staff member; otherwise it shows ascending dates, only positive hours, and exactly the rows of this staff member's records of today's month with hours, one row per worked record (the same multiset) |
| EditHours.ShownRowsCounts | src/components/dialogs/edit-hours-dialog.tsx:70-78 | sorting and mapping lose and duplicate nothing: counted with multiplicity, the shown rows are the worked rows of the month's records |
| EditHours.RowsOfPermutation | src/components/dialogs/edit-hours-dialog.tsx:74-77 | records that are a permutation of each other map to rows that are a permutation of each other |
| EditHours.RowsOfAppend | src/components/dialogs/edit-hours-dialog.tsx:76-77 | the row map distributes over concatenation |
| EditHours.ShownRowsFacts | src/components/dialogs/edit-hours-dialog.tsx:70-78 | the filter, sort, map and zero-hide pipeline gives ascending dates and exactly the worked days of the month |
| EditHours.SameMembers | src/components/dialogs/edit-hours-dialog.tsx:74 | sorting does not change which records are present |
| EditHours.EditMap | src/components/dialogs/edit-hours-dialog.tsx:96 | every edited date is a key, and each key's value is the hours of some row with that date |
| EditHours.LaterEditWins | src/components/dialogs/edit-hours-dialog.tsx:96 | when rows repeat a date, the last row's hours are kept |
| EditHours.MergeAll | src/components/dialogs/edit-hours-dialog.tsx:98-103 | one merged entry per record, in order |
| EditHours.MergedHours | src/components/dialogs/edit-hours-dialog.tsx:90-103 | one entry per stored record of this staff member in today's month, in stored order and with the same date; an edited date takes the edited hours, and every other date keeps its stored hours |
| EditHours.SubmitHours | src/components/dialogs/edit-hours-dialog.tsx:86-106 | a submit happens exactly when a staff member is open and every row's hours lie in 0..24 (the schema of line 32); it is keyed by the staff member's id, and every edited day it sends has hours in 0..24 |
| EditHours.UnchangedSubmitKeepsHours | src/components/dialogs/edit-hours-dialog.tsx:76-103 | saving the editor as it opened writes back exactly the stored hours, as long as no two records share a date |
| EditHours.KeptHoursAt | src/components/dialogs/edit-hours-dialog.tsx:96-103 | the unchanged save keeps the stored hours of each single record |
| EditHours.ShownRecordHours | src/components/dialogs/edit-hours-dialog.tsx:76-96 | a record with positive hours is shown, and the edit map returns its stored hours |
| EditHours.HiddenRecord | src/components/dialogs/edit-hours-dialog.tsx:78 | a record without hours has no row with its date |
| EditHours.RowsDatedLike | src/components/dialogs/edit-hours-dialog.tsx:76-78 | a row with a record's date is that record's row |
| AttendanceRoster.SelectedDayName | src/components/dialogs/add-attendance-dialog.tsx:75-80 | the day looked up is that of today when the date is empty, and of the date that parses otherwise, both after the local rebuild of lines 76-77, so a year of 100 or more names its own weekday; text that is no date names no day |
| AttendanceRoster.TwoDigitYearSheet | src/components/dialogs/add-attendance-dialog.tsx:75-80 | typing 0050-01-01 selects the schedules of Sunday, the weekday of 1950-01-01 |
| AttendanceRoster.WorkingDayAgrees | src/components/dialogs/add-attendance-dialog.tsx:86-93 | when the day's first entry is a working day, the second lookup, for the default hours, finds that same entry |
| AttendanceRoster.RecordsOf | src/components/dialogs/add-attendance-dialog.tsx:90-105 | one sheet line per listed staff member, in order |
| AttendanceRoster.RosterMembers | src/components/dialogs/add-attendance-dialog.tsx:82-104 | a staff member is listed exactly when hourly and scheduled to work the day; the line carries their id, name and the hourly type, with the day entry's hours |
| AttendanceRoster.RosterComplete | src/components/dialogs/add-attendance-dialog.tsx:82-88 | every hourly staff member who works the day is on the sheet |
| AttendanceRoster.RosterLineFrom | src/components/dialogs/add-attendance-dialog.tsx:82-104 | every line of the sheet comes from a listed staff member |
| AttendanceRoster.RosterAppend | src/components/dialogs/add-attendance-dialog.tsx:82-105 | the sheet of a concatenation is the concatenation of the sheets, so lines follow staff order |
| AttendanceRoster.RecordsAppend | src/components/dialogs/add-attendance-dialog.tsx:90 | building lines distributes over concatenation |
| AttendanceRoster.NoDayNoRoster | src/components/dialogs/add-attendance-dialog.tsx:80-88 | an undefined weekday lists nobody |
| AttendanceRoster.DefaultSheetDate | src/components/dialogs/add-attendance-dialog.tsx:61 | the date field opens with today's text, which reads back as today and selects the same weekday as an empty field |
| AttendanceRoster.SubmitSheet | src/components/dialogs/add-attendance-dialog.tsx:110-111 | the sheet is saved exactly when the date is non-empty and every hours value lies in 0..24 (the schema of lines 35 and 39), and the lines and the date are forwarded unchanged |
| Sorting.Find | src/components/dialogs/edit-staff-dialog.tsx:73 | `find` returns the first element that satisfies the predicate, or nothing exactly when none does; the staff dialogs look positions up by id with it, and the attendance sheet schedule entries by day |
| StaffForms.EditPrefill | src/components/dialogs/edit-staff-dialog.tsx:59-67 | the form opens with the name, position id and salary, and with zero hours for all five days when none are stored |
| StaffForms.FindPosition | src/components/dialogs/edit-staff-dialog.tsx:73 | `positions.find` by id returns the first position with that id, and nothing exactly when no position has it |
| StaffForms.BuildUpdate | src/components/dialogs/edit-staff-dialog.tsx:77-89 | the name is copied unchanged. A monthly update has a salary and no hours; an empty or zero salary falls back to the rate, and any other salary is kept. An hourly update carries the form's hours and no salary |
| StaffForms.SubmitEdit | src/components/dialogs/edit-staff-dialog.tsx:70-92 | an update is issued exactly when the form is valid under the schema of lines 29-40, a staff member is open and the position exists; it is keyed by the staff id and is the update built from the form and the first position with the picked id. A missing position is the throw of `find(...)!.type` |
| StaffForms.EditRoundTripMonthly | src/components/dialogs/edit-staff-dialog.tsx:59-92 | saving a monthly staff member's form as it opened keeps a non-zero salary and sends no hours |
| StaffForms.SubmitNewStaff | src/components/dialogs/add-staff-dialog.tsx:27-59 | a new staff member is created exactly when name and position id are non-empty, with only the name and the first position with that id, which is undefined exactly when no position has the id |
| StaffForms.AddStaff | src/components/dialogs/add-staff-dialog.tsx:59 | the staff page's `handleAddStaff` appends the new member under the id and avatar the page supplies (`staff${Date.now()}`, not checked against existing ids), with no salary, hours or schedule, and keeps everyone already listed; a member without a position cannot be listed, since its row reads the position's fields |
| StaffForms.AddedStaffFromForm | src/components/dialogs/add-staff-dialog.tsx:51-59 | adding through the form appends exactly one member, with the typed name and the first position with the picked id, after the unchanged list |
| StaffForms.RateHint | src/components/dialogs/add-staff-dialog.tsx:102-104 | the hint shows exactly when the picked id names a position (the `find` of line 48), reading "Monthly Salary" for a monthly position and "Hourly Rate" for an hourly one |
| GradeLists.GradesOf | src/components/students/student-table.tsx:163 | the grade of each student, in order |
| GradeLists.AddGrade | src/components/students/student-table.tsx:163-164 | adding a grade to an ascending set keeps it strictly ascending and adds exactly that grade |
| GradeLists.UniqueGrades | src/components/students/student-table.tsx:162-165 | the distinct grades, strictly ascending, holding exactly the input's grades |
| GradeLists.AscendingByMembers | src/components/students/student-table.tsx:164 | two strictly ascending lists with the same members are equal |
| GradeLists.UniqueGradesIsTheSortedSet | src/components/dialogs/add-test-result-dialog.tsx:83-86 | any strictly ascending list holding exactly the students' grades is the picker list, so both dialogs' `uniqueGrades` are the same list |
| StudentTable.BalanceBadge | src/components/students/student-table.tsx:107-108 | a destructive badge exactly for a debt, default and green exactly for credit, secondary exactly for zero |
| StudentTable.DebtorsShowDestructive | src/components/students/student-table.tsx:107 | every student on the debtor card shows a destructive badge in the table |
| StudentTable.StatusBadge | src/components/students/student-table.tsx:129-130 | the outline badge exactly when the label reads "Archived", the secondary badge exactly when it reads "Active" |
| StudentTable.Columns | src/components/students/student-table.tsx:60-154 | the five data columns in order, with the actions column appended exactly for an admin |
| StudentTable.StatusChoice | src/components/students/student-table.tsx:218 | "all" removes the filter, "active" filters for `false`, and any other value filters for `true` |
| StudentTable.StatusChoiceMatchesLabel | src/components/students/student-table.tsx:218 | under the intended filter, picking a status keeps exactly the rows whose cell (lines 129-130) reads that status, and "all" keeps every row |
| StudentTable.StatusFilterAsWritten | src/components/students/student-table.tsx:133-135 | the filter function throws exactly when a status is picked |
| StudentTable.StatusPickThrows | src/components/students/student-table.tsx:133-135 | picking "active" (line 218) makes the filter as written throw on an active student, whom the intended filter keeps |
| StudentTable.StatusFilter | src/components/students/student-table.tsx:133-135 | the corrected filter never throws and keeps a row exactly when its flag equals the picked one |
| TestResults.MonthOptions | src/components/dialogs/add-test-result-dialog.tsx:49-52 | twelve options: January to December in order, each followed by a space and the year |
| TestResults.MonthOptionReadsBack | src/components/dialogs/add-test-result-dialog.tsx:49-52 | each option starts with its month's name and a space, followed by the year's digits, which read back as the year |
| TestResults.MonthOptionsDistinct | src/components/dialogs/add-test-result-dialog.tsx:49-52 | the twelve options are pairwise different |
| TestResults.SameSuffixCancels | src/components/dialogs/add-test-result-dialog.tsx:52 | two options with the same year are equal only for equal month names |
| TestResults.MonthNamesDiffer | src/components/dialogs/add-test-result-dialog.tsx:49-51 | the twelve month names are pairwise different |
| TestResults.DefaultMonth | src/components/dialogs/add-test-result-dialog.tsx:49-73 | the form opens on an option of the year read when the module loaded (line 52), named by the month read when the form mounts (line 73); in the same year that is the current month's option |
| TestResults.DefaultMonthAcrossNewYear | src/components/dialogs/add-test-result-dialog.tsx:49-73 | loaded on 2024-12-31 and opened on 2025-01-01, the form shows "January 2024", which is not an option of 2025 |
| TestResults.StudentsInGrade | src/components/dialogs/add-test-result-dialog.tsx:92 | only students of the chosen grade are selected |
| TestResults.StudentsInGradeMembers | src/components/dialogs/add-test-result-dialog.tsx:92 | a student is selected exactly when they are in the input with that grade |
| TestResults.StudentsInGradeAppend | src/components/dialogs/add-test-result-dialog.tsx:92 | selection distributes over concatenation, so input order is kept |
| TestResults.RowsOf | src/components/dialogs/add-test-result-dialog.tsx:93 | one row per student, with that student's id and name and score 0 |
| TestResults.GradeRows | src/components/dialogs/add-test-result-dialog.tsx:92-93 | one row per student of the grade, each scored 0 |
| TestResults.OfferedGradeHasRows | src/components/dialogs/add-test-result-dialog.tsx:83-93 | every grade the picker offers opens at least one row |
| TestResults.ParseGrade | src/components/dialogs/add-test-result-dialog.tsx:89 | a picker value gives a grade exactly when it is a non-empty digit string |
| TestResults.HandleGradeChange | src/components/dialogs/add-test-result-dialog.tsx:88-94 | a grade that does not parse opens no rows; a parsed grade opens that grade's rows |
| TestResults.ChoosingOfferedGrade | src/components/dialogs/add-test-result-dialog.tsx:88-94 | choosing an offered grade by its `toString()` value (line 140) selects that grade and opens its rows, at least one |
| TestResults.SubmitTest | src/components/dialogs/add-test-result-dialog.tsx:96-98 | a save happens exactly when a non-zero grade is selected (the button of line 173 is disabled otherwise), and under the schema of lines 35-45 the month is non-empty, the grade is at least 1 and every score lies in 0..100; the month, grade and rows are handed on unchanged |
| TestResults.FreshRowsAreValid | src/components/dialogs/add-test-result-dialog.tsx:88-98 | the rows a grade opens are accepted as they are |
| I18n.Split | src/context/i18n.tsx:29 | `split('.')` gives at least one piece and no piece contains a dot |
| I18n.JoinSplit | src/context/i18n.tsx:29 | joining the pieces gives the key back |
| I18n.SplitJoin | src/context/i18n.tsx:29 | dot-free pieces come back from splitting their join |
| I18n.SplitPlain | src/context/i18n.tsx:29 | a key without dots is a one-step path |
| I18n.SplitPlainThenSep | src/context/i18n.tsx:29 | a dot-free first part, a dot, then the rest: the first part is the first step |
| I18n.ResolveAppend | src/context/i18n.tsx:31-33 | looking a path up is looking up its front, then the rest from where the front led |
| I18n.ResolveFromNothing | src/context/i18n.tsx:32 | once a step is undefined, the lookup stays undefined |
| I18n.Translate | src/context/i18n.tsx:28-44 | `t` returns the key or a truthy value. A truthy value at the path in the current language is returned. An empty value there gives the key. A path missing there is looked up in English, where a missing or empty value gives the key |
| I18n.TranslateLoop | src/context/i18n.tsx:28-44 | the source's loop with its early return agrees with `Translate` |
| I18n.EnglishFallback | src/context/i18n.tsx:35-40 | the English walk returns the English value, or the key when the path breaks off or ends empty |
| I18n.ResolveBreaks | src/context/i18n.tsx:33-38 | a path whose prefix is undefined is undefined |
| I18n.SplitSidebarKey | src/context/i18n.tsx:29 | "sidebar.dashboard" splits into "sidebar" and "dashboard" |
| I18n.TranslateTwoLevels | src/context/i18n.tsx:28-44 | `t("sidebar.dashboard")` reads the dashboard entry of the sidebar group |
| Auth.Login | src/context/auth.tsx:21-43 | login succeeds exactly for Admin/admin_7 and Visitor/visitor_07, with the typed name and the admin role exactly for the admin password; any other pair throws "Invalid username or password" |
| Auth.AfterLogin | src/context/auth.tsx:35-43 | a refused login leaves the user unchanged; a successful one sets it |
| Auth.Logout | src/context/auth.tsx:45-48 | logout leaves nobody signed in |
| Auth.SignedInUsers | src/context/auth.tsx:27-43 | only the two fixed accounts can ever be signed in, and matching is exact: mixed pairs and other letter cases are refused |
| Auth.SubmitLogin | src/app/login/page.tsx:23-55 | an empty field stops the submit. A known account goes to /dashboard and signs in. Any other pair shows a destructive "Login Failed" toast with the error's message and leaves the state unchanged |
| Auth.NavigatesIffKnownAccount | src/app/login/page.tsx:44-55 | the page navigates exactly for one of the two accounts |
| Navigation.FirstUnder | src/components/header.tsx:69-70 | `find` returns the first item whose href is a prefix of the path, or nothing when no href is |
| Navigation.TitleKey | src/components/header.tsx:67-70 | the title key is the label of the first item, in the order main, admin, settings, whose href prefixes the path, and the app name when none does |
| Navigation.SubPageHasMenuTitle | src/components/header.tsx:69-74 | a sub-page always has a menu title, never the app name |
| Navigation.LabelKeysAreNotFallback | src/components/header.tsx:41-70 | no item's label key equals the app name |
| Navigation.StaffingCountsAsStaff | src/components/header.tsx:70-74 | matching is a plain prefix test: "/staffing" takes the staff title and counts as a sub-page |
| Navigation.RootHasAppTitle | src/components/header.tsx:70-74 | "/" shows the app name and no back button |
| Navigation.Render | src/components/header.tsx:94-105 | one link per item, in order, highlighted exactly when the path starts with its href |
| Navigation.HeaderMenu | src/components/header.tsx:94-130 | the main items in their fixed order, then the users link exactly for the Admin account, with settings below for everyone, each link highlighted exactly when the path starts with its href |
| Navigation.Sidebar | src/components/sidebar.tsx:65-104 | the narrow sidebar shows exactly the header menu's links, gating and highlighting |
| Navigation.MainSidebar | src/components/main-sidebar.tsx:59-128 | the wide sidebar lists the main items, ending with last-actions, plus the /users link exactly for the Admin account, with settings below; each link is highlighted exactly when the path starts with its href (line 60); `isOpen` sets only the width |
| Navigation.OpenOnlyChangesLayout | src/components/main-sidebar.tsx:70-125 | opening or closing the wide sidebar never changes which links appear or which is highlighted |
| Navigation.MainSidebarGateAgrees | src/components/main-sidebar.tsx:120 | the wide sidebar gates the users link exactly as the header does |
| Navigation.AdminLinksOnlyForAdminLogin | src/components/header.tsx:107 | from a state without admin links, only signing in as Admin/admin_7 shows them |
| Navigation.FallbackTitleShowsItself | src/components/header.tsx:70 | the app-name title shows as itself when no catalog has an entry of that name |
| Navigation.StaffRowActions | src/components/staff/staff-data-table-row-actions.tsx:40-55 | View Profile, linking to /staff/{id}, always comes first; Edit and Delete are present exactly for the admin role |
| Navigation.Dispatch | src/components/staff/staff-data-table-row-actions.tsx:41-50 | Edit calls onEdit and Delete calls onDelete, never the other, and View Profile follows its link |
| Navigation.RowMenuGateAgrees | src/components/staff/staff-data-table-row-actions.tsx:43 | for every user the login can produce, the row menu's role-only gate agrees with the sidebars' role-and-name gate |
| Forms.SubmitNewUser | src/components/dialogs/add-user-dialog.tsx:41-72 | an account is accepted exactly when the username is at least 3 UTF-16 units long and unused and the password at least 6; the form is forwarded unchanged |
| Forms.Utf16Length | src/components/dialogs/add-user-dialog.tsx:42-46 | `min(n)` counts `.length`, which is UTF-16 units: from one to two per character, and one per character exactly when none lies outside the Basic Multilingual Plane |
| Forms.Utf16LengthAppend | src/components/dialogs/add-user-dialog.tsx:42-46 | the length of a concatenation is the sum of the lengths |
| Forms.NonEmptyEitherWay | src/components/dialogs/add-student-dialog.tsx:26-28 | a `min(1)` check means the same in UTF-16 units and in characters |
| Forms.AstralCharactersCountTwice | src/components/dialogs/add-user-dialog.tsx:42-46 | a username of two emoji and a password of three are accepted by both account forms, as four and six units |
| Forms.AddUser | src/components/dialogs/add-user-dialog.tsx:71-72 | the users page's `handleAddUser` appends the forwarded account under the id the page supplies (`user-${Date.now()}`, not checked against existing ids) and keeps all others |
| Forms.AcceptedUserKeepsNamesDistinct | src/components/dialogs/add-user-dialog.tsx:43-45 | accepted accounts keep the page's usernames distinct |
| Forms.PasswordPrefill | src/components/dialogs/edit-user-dialog.tsx:50-53 | the edit form opens with the current password |
| Forms.SubmitPasswordEdit | src/components/dialogs/edit-user-dialog.tsx:28-59 | an update is issued exactly when a user is open and the password is at least 6 UTF-16 units long, and it carries only that user's id and the password |
| Forms.ApplyPasswordUpdate | src/components/dialogs/edit-user-dialog.tsx:58 | the users page's `handleUpdateUser` merges the update into the account with its id: only the accounts with that id change, and only their password |
| Forms.PasswordEditUnchanged | src/components/dialogs/edit-user-dialog.tsx:50-59 | saving the password form as it opened changes no account |
| Forms.SubmitPayment | src/components/dialogs/make-payment-dialog.tsx:27-53 | a payment is issued exactly when a student is open and the amount is positive, for that student's id, with the note or "" when it is missing |
| Forms.PaymentIgnoresLedger | src/components/dialogs/make-payment-dialog.tsx:49-51 | the payment depends on the student only through the id, so balance, fee and archive flag never enter it, and a missing note is the same as an empty one |
| Forms.SubmitNewPosition | src/components/dialogs/add-position-dialog.tsx:32-61 | a position is accepted exactly when the name is non-empty and the rate is at least 1, and is forwarded unchanged |
| Forms.PositionPrefill | src/components/dialogs/edit-position-dialog.tsx:60-68 | the edit form opens with the position's name, type and rate |
| Forms.SubmitPositionEdit | src/components/dialogs/edit-position-dialog.tsx:34-73 | an update is issued exactly when a position is open and the form is valid, keyed by that position's id |
| Forms.ApplyPositionUpdate | src/components/dialogs/edit-position-dialog.tsx:70-72 | the positions page's `handleUpdatePosition` merges the update by id: a position with the id takes the form's name, type and rate, keeping its id; the others are unchanged |
| Forms.PositionEditUnchanged | src/components/dialogs/edit-position-dialog.tsx:60-73 | saving the position form as it opened changes no position |
| Forms.SubmitNewStudent | src/components/dialogs/add-student-dialog.tsx:22-47 | a student is accepted exactly when the name and date of birth are non-empty, the grade is in 1..12 and the fee is at least 0; the four fields go on unchanged and nothing else |
| Forms.StudentPrefill | src/components/dialogs/edit-student-dialog.tsx:46-55 | the edit form opens with the name, grade and fee, and with the date of birth, or "" when there is none |
| Forms.SubmitStudentEdit | src/components/dialogs/edit-student-dialog.tsx:23-61 | an update is issued exactly when a student is open and the form is valid, keyed by that student's id, with only the four form fields |
| Forms.StudentEditIgnoresLedger | src/components/dialogs/edit-student-dialog.tsx:23-60 | the update depends on the student only through the id, so balance and archive flag are never carried |
| Forms.StudentPrefillSaves | src/components/dialogs/edit-student-dialog.tsx:46-61 | a valid student with a date of birth saves unchanged; one without a date of birth cannot be saved as it opened |
| Forms.SubmitExpense | src/components/dialogs/add-expense-dialog.tsx:26-52 | an expense is accepted exactly when the description and date are non-empty and the amount is at least 1, and is forwarded unchanged |
| Forms.DefaultExpenseDate | src/components/dialogs/add-expense-dialog.tsx:47 | the date field opens with ten characters that read back as today's UTC date |
| Forms.DefaultDateAccepted | src/components/dialogs/add-expense-dialog.tsx:26-47 | with a description and an amount filled in, the form is accepted on its default date |

## Left out

- Staff salaries: the staff page (`calculateSalary`) shows `salary` for a monthly position and the sum of `hoursWorked` times 4 times the hourly rate for an hourly one. That page is outside the modelled dialogs and the calculation is not modelled.
- Payment deadlines: the student detail page (`getPaymentDeadline`) steps a month at a time from the enrolment date, or takes the first of the month, to find the next deadline. It depends on the clock and on date-fns month arithmetic, is outside the modelled dialogs, and is not modelled.
- The AI debtor report (src/ai/flows/generate-debtor-report.ts): an asynchronous call to a language model that returns free text.
- Static markup and presentation: chart data, icons, class names, tooltips, the landing redirect, and the student and user row menus.
- Library behaviour is not modelled: React state and effects, form registration and reset, the table's sorting, pagination and name filter, toasts, the router and local-storage persistence. Each form is modelled as its schema predicate applied to already-parsed values, plus what its submit hands on.
- Number parsing and formatting are not modelled: `z.coerce.number`, `parseFloat` and `toLocaleString`. Money and hours are integers, and hours are half-hours. NaN, fractional money and coercion of non-numeric text are left out.
- Time zones are not modelled. Dates are civil (year, month, day) values, and the weekday comes from a day count. The edit-hours month filter reads the local month of `new Date("YYYY-MM-DD")`, which is UTC midnight, so west of UTC every record dated the first of a month is read as the previous month; here it uses the stored date's own month.
- Dates.ParseIso: reads only the `YYYY-MM-DD` shape, with years 0..9999. `new Date` accepts more shapes, and those are not modelled.
- Dashboard.RecentStudents: when some students have a readable enrolment date and others do not, the comparator mixes NaN with numbers and is inconsistent, so the engine chooses the order; the model gives `None` there and promises nothing about the list's order; `Dashboard.AnyEngineOrder` states what holds for any order.
- Dates.FormatIso: formats only years 0..9999. `toISOString` writes wider years with a sign, and those are not modelled.
- TestResults.ParseGrade: only an all-digit string parses. `parseInt`'s reading of a digit prefix followed by other characters is not modelled, because the picker only offers `toString()` values.
- I18n.Translate: a path step into a text value is undefined, and so is a step to a name the catalog object only inherits. JavaScript would read string properties such as `length`, and `Object.prototype` members such as `constructor` or `toString`, which are truthy functions, so `t("constructor")` returns a function where the model returns the key. No key the screens pass names one.
- EditHours.MergedHours: edits are keyed by calendar date, not by the date's raw text. Stored dates and row dates are the same text in the source, so the two agree.
- Dashboard.SeedTopDebtors: the seed students' payment type and avatar are parameters. The seed records have no payment type, and their avatar comes from an image lookup that is not modelled; neither card reads either field. They have no enrolment date either, which the model records as `None`.
- Navigation.Render: the landing link and the `sr-only` labels are left out. Each link carries its item and its highlight, not its translated text.
- StaffForms.RateHint: returns the hint's label only, without the rate formatted by `toLocaleString`.
- Auth.Logout: the move to /login after logout is router navigation and is not modelled.
- The student table's "All Grades" entry with an empty value is left out, because it belongs to the picker library.
- The users page's open and delete guards (`openDialog`, `handleDeleteUser`) are left out. Only its add and update handlers are modelled, as the partners of the account forms.

## Findings

| source | as written | input that shows it | evidently intended | confidence | as-written member | corrected member |
|---|---|---|---|---|---|---|
| src/components/students/student-table.tsx:133-135 | the status column's filter calls `value.includes(...)` on its filter value, but the status picker (line 218) stores a boolean there, and a boolean has no `includes` method | picking "Active" or "Archived" in the status picker: the table runs the filter on each row and it throws | keep the rows whose `isArchived` equals the picked boolean | medium, not executed | StudentTable.StatusFilterAsWritten, StudentTable.StatusPickThrows | StudentTable.StatusFilter |

=== FILE: attendance_roster.dfy ===
/**
 * The daily attendance sheet for hourly staff
 * (src/components/dialogs/add-attendance-dialog.tsx): the chosen date's weekday
 * selects, from each hourly staff member's weekly schedule, who is listed and
 * with how many hours by default.
 */
module AttendanceRoster {
  import opened Wrappers
  import opened Dates
  import opened Sorting
  import opened Entities

  /**
   * The weekday name the sheet looks schedules up by: that of the date typed in,
   * or of today when the field is empty, after the date is rebuilt in local
   * time from its UTC fields (so a two-digit year names a day of the 1900s).
   * Text that is not a date names no day (the source indexes the weekday table
   * with NaN and gets `undefined`).
   */
  function SelectedDayName(dateInput: string, today: CivilDate): (r: Option<string>)
    ensures r.Some? ==> r.value in WeekDayNames
    ensures dateInput == "" ==> r == Some(WeekDayName(LocalConstruct(today)))
    ensures dateInput != "" ==> (r.Some? <==> ParseIso(dateInput).Some?)
    ensures ParseIso(dateInput).Some? ==> r == Some(WeekDayNames[MondayIndex(LocalConstruct(ParseIso(dateInput).value))])
    ensures ParseIso(dateInput).Some? && ParseIso(dateInput).value.year >= 100 ==>
              r == Some(WeekDayName(ParseIso(dateInput).value))
  {
    if dateInput == "" then Some(WeekDayName(LocalConstruct(today)))
    else match ParseIso(dateInput)
      case Some(d) => Some(WeekDayName(LocalConstruct(d)))
      case None => None
  }

  /** A date typed with a two-digit year selects the weekday of that day in the 1900s. */
  lemma TwoDigitYearSheet(today: CivilDate)
    ensures SelectedDayName(FormatIso(Date(50, 1, 1)), today) == Some("Sunday")
  {
    ParseFormatIso(Date(50, 1, 1));
    TwoDigitYears();
  }

  /** `workSchedule.find(d => d.day === day)`: the first entry for that day. */
  function FindDay(schedule: seq<WorkDay>, day: string): Option<WorkDay> {
    Find(schedule, (w: WorkDay) => w.day == day)
  }

  /** `workSchedule.find(d => d.day === day && d.isWorkingDay)`. */
  function FindWorkingDay(schedule: seq<WorkDay>, day: string): Option<WorkDay> {
    Find(schedule, (w: WorkDay) => w.day == day && w.isWorkingDay)
  }

  /**
   * When the first entry for a day is a working day, the second lookup the
   * sheet makes for the default hours finds that same entry.
   */
  lemma {:induction false} WorkingDayAgrees(schedule: seq<WorkDay>, day: string)
    requires FindDay(schedule, day).Some? && FindDay(schedule, day).value.isWorkingDay
    ensures FindWorkingDay(schedule, day) == FindDay(schedule, day)
  {
    if schedule[0].day != day {
      WorkingDayAgrees(schedule[1..], day);
    }
  }

  predicate IsHourly(s: Staff) {
    s.position.kind == Hourly
  }

  /** The staff member has a schedule whose first entry for the day is a working day. */
  predicate WorksOn(s: Staff, day: Option<string>) {
    && day.Some?
    && s.workSchedule.Some?
    && FindDay(s.workSchedule.value, day.value).Some?
    && FindDay(s.workSchedule.value, day.value).value.isWorkingDay
  }

  /** One pre-filled line of the sheet. */
  datatype SheetRecord = SheetRecord(staffId: string, staffName: string, positionType: PositionType, hours: int)

  function DefaultHours(s: Staff, day: Option<string>): int {
    if day.Some? && s.workSchedule.Some? then
      match FindWorkingDay(s.workSchedule.value, day.value)
      case Some(w) => w.hours
      case None => 0
    else 0
  }

  function RecordOf(s: Staff, day: Option<string>): SheetRecord {
    SheetRecord(s.id, s.fullName, s.position.kind, DefaultHours(s, day))
  }

  function RecordsOf(staff: seq<Staff>, day: Option<string>): (r: seq<SheetRecord>)
    ensures |r| == |staff|
    ensures forall i :: 0 <= i < |r| ==> r[i] == RecordOf(staff[i], day)
  {
    if staff == [] then [] else [RecordOf(staff[0], day)] + RecordsOf(staff[1..], day)
  }

  predicate Listed(s: Staff, day: Option<string>) {
    IsHourly(s) && WorksOn(s, day)
  }

  /** The sheet for a weekday: hourly staff scheduled to work that day, in staff order. */
  function Roster(staff: seq<Staff>, day: Option<string>): seq<SheetRecord> {
    RecordsOf(Filter(Filter(staff, IsHourly), (s: Staff) => WorksOn(s, day)), day)
  }

  /**
   * A staff member is on the sheet exactly when hourly and scheduled to work the
   * day; each line carries that member's id, name and position type, and the
   * hours of the day's schedule entry.
   */
  lemma RosterMembers(staff: seq<Staff>, day: Option<string>)
    ensures forall s :: s in staff && Listed(s, day) ==> RecordOf(s, day) in Roster(staff, day)
    ensures forall i :: 0 <= i < |Roster(staff, day)| ==>
              exists s :: s in staff && Listed(s, day) && Roster(staff, day)[i] == RecordOf(s, day)
    ensures forall s :: Listed(s, day) ==>
              && RecordOf(s, day).staffId == s.id
              && RecordOf(s, day).staffName == s.fullName
              && RecordOf(s, day).positionType == Hourly
              && RecordOf(s, day).hours == FindDay(s.workSchedule.value, day.value).value.hours
  {
    RosterComplete(staff, day);
    forall i | 0 <= i < |Roster(staff, day)|
      ensures exists s :: s in staff && Listed(s, day) && Roster(staff, day)[i] == RecordOf(s, day)
    {
      RosterLineFrom(staff, day, i);
    }
    forall s | Listed(s, day)
      ensures RecordOf(s, day).hours == FindDay(s.workSchedule.value, day.value).value.hours
    {
      WorkingDayAgrees(s.workSchedule.value, day.value);
    }
  }

  lemma RosterComplete(staff: seq<Staff>, day: Option<string>)
    ensures forall s :: s in staff && Listed(s, day) ==> RecordOf(s, day) in Roster(staff, day)
  {
    var hourly := Filter(staff, IsHourly);
    var scheduled := Filter(hourly, (s: Staff) => WorksOn(s, day));
    FilterMembers(staff, IsHourly);
    FilterMembers(hourly, (s: Staff) => WorksOn(s, day));
    var r := Roster(staff, day);
    forall s | s in staff && Listed(s, day)
      ensures RecordOf(s, day) in r
    {
      var k :| 0 <= k < |scheduled| && scheduled[k] == s;
      assert r[k] == RecordOf(s, day);
    }
  }

  lemma RosterLineFrom(staff: seq<Staff>, day: Option<string>, i: int)
    requires 0 <= i < |Roster(staff, day)|
    ensures exists s :: s in staff && Listed(s, day) && Roster(staff, day)[i] == RecordOf(s, day)
  {
    var hourly := Filter(staff, IsHourly);
    var scheduled := Filter(hourly, (s: Staff) => WorksOn(s, day));
    FilterMembers(staff, IsHourly);
    FilterMembers(hourly, (s: Staff) => WorksOn(s, day));
    var s := scheduled[i];
    assert s in scheduled;
    assert s in staff && Listed(s, day) && Roster(staff, day)[i] == RecordOf(s, day);
  }

  /** The sheet of a concatenation is the concatenation of the sheets: lines follow staff order. */
  lemma RosterAppend(a: seq<Staff>, b: seq<Staff>, day: Option<string>)
    ensures Roster(a + b, day) == Roster(a, day) + Roster(b, day)
  {
    FilterAppend(a, b, IsHourly);
    FilterAppend(Filter(a, IsHourly), Filter(b, IsHourly), (s: Staff) => WorksOn(s, day));
    RecordsAppend(Filter(Filter(a, IsHourly), (s: Staff) => WorksOn(s, day)),
                  Filter(Filter(b, IsHourly), (s: Staff) => WorksOn(s, day)), day);
  }

  lemma RecordsAppend(a: seq<Staff>, b: seq<Staff>, day: Option<string>)
    ensures RecordsOf(a + b, day) == RecordsOf(a, day) + RecordsOf(b, day)
  {
  }

  /** A date that is no calendar date lists nobody. */
  lemma NoDayNoRoster(staff: seq<Staff>)
    ensures Roster(staff, None) == []
  {
    FilterNone(Filter(staff, IsHourly), (s: Staff) => WorksOn(s, None));
  }

  /** The sheet's form values. */
  datatype SheetForm = SheetForm(date: string, records: seq<SheetRecord>)

  predicate ValidSheet(form: SheetForm) {
    && |form.date| >= 1
    && forall i :: 0 <= i < |form.records| ==> 0 <= form.records[i].hours <= MaxDayHalfHours
  }

  /** The date field's initial value: today's `YYYY-MM-DD`. */
  function DefaultSheetDate(today: CivilDate): (s: string)
    requires 0 <= today.year <= 9999
    ensures ParseIso(s) == Some(today)
    ensures SelectedDayName(s, today) == SelectedDayName("", today)
  {
    ParseFormatIso(today);
    FormatIso(today)
  }

  /** Save: the lines and the date go to the page unchanged, or nothing when validation fails. */
  function SubmitSheet(form: SheetForm): (r: Option<(seq<SheetRecord>, string)>)
    ensures r.Some? <==> |form.date| >= 1 && forall i :: 0 <= i < |form.records| ==> 0 <= form.records[i].hours <= MaxDayHalfHours
    ensures r.Some? ==> r.value.0 == form.records && r.value.1 == form.date
  {
    if ValidSheet(form) then Some((form.records, form.date)) else None
  }
}

=== FILE: auth.dfy ===
/**
 * Signing in and out (src/context/auth.tsx) and the login page that drives it
 * (src/app/login/page.tsx). Two fixed accounts exist; any other pair of
 * credentials is refused with one message and leaves the signed-in user as it was.
 */
module Auth {
  import opened Wrappers
  import opened Entities

  const AdminUsername := "Admin"
  const AdminPassword := "admin_7"
  const VisitorUsername := "Visitor"
  const VisitorPassword := "visitor_07"
  const InvalidCredentials := "Invalid username or password"

  /** The signed-in user, `null` (`None`) when nobody is signed in. */
  type AuthState = Option<User>

  /** Nobody is signed in at first. */
  const Initial: AuthState := None

  /** What `login` does: set a user, or throw an error with a message. */
  datatype LoginResult = LoggedIn(user: User) | Refused(message: string)

  function Login(username: string, password: string): (r: LoginResult)
    ensures r.LoggedIn? <==> ((username == AdminUsername && password == AdminPassword)
                              || (username == VisitorUsername && password == VisitorPassword))
    ensures r.LoggedIn? ==> r.user.username == username
    ensures r.LoggedIn? ==> (r.user.role == Admin <==> password == AdminPassword)
    ensures r.Refused? ==> r.message == InvalidCredentials
  {
    if username == AdminUsername && password == AdminPassword then LoggedIn(User(AdminUsername, Admin))
    else if username == VisitorUsername && password == VisitorPassword then LoggedIn(User(VisitorUsername, Visitor))
    else Refused(InvalidCredentials)
  }

  /** The state after a login attempt: a refusal changes nothing. */
  function AfterLogin(state: AuthState, username: string, password: string): (s: AuthState)
    ensures Login(username, password).Refused? ==> s == state
    ensures Login(username, password).LoggedIn? ==> s == Some(Login(username, password).user)
  {
    match Login(username, password)
    case LoggedIn(u) => Some(u)
    case Refused(_) => state
  }

  function Logout(state: AuthState): (s: AuthState)
    ensures s.None?
  {
    None
  }

  /**
   * The only users that can ever be signed in are the two fixed accounts, and
   * matching is exact: the admin name with the visitor password, or a name in
   * another case, is refused.
   */
  lemma SignedInUsers(state: AuthState, username: string, password: string)
    requires state.None? || state == Some(User(AdminUsername, Admin)) || state == Some(User(VisitorUsername, Visitor))
    ensures var s := AfterLogin(state, username, password);
            s.None? || s == Some(User(AdminUsername, Admin)) || s == Some(User(VisitorUsername, Visitor))
    ensures Login(AdminUsername, VisitorPassword).Refused?
    ensures Login(VisitorUsername, AdminPassword).Refused?
    ensures Login("admin", AdminPassword).Refused?
  {
    assert AdminPassword != VisitorPassword by {
      assert |AdminPassword| != |VisitorPassword|;
    }
    assert AdminUsername != VisitorUsername by {
      assert AdminUsername[0] != VisitorUsername[0];
    }
    assert "admin" != AdminUsername by {
      assert "admin"[0] != AdminUsername[0];
    }
  }

  // ---- the login page ----

  /** The login form: both fields are required. */
  datatype LoginForm = LoginForm(username: string, password: string)

  predicate ValidLoginForm(f: LoginForm) {
    |f.username| >= 1 && |f.password| >= 1
  }

  /** A toast's look, title and text. */
  datatype Toast = Toast(destructive: bool, title: string, description: string)

  /** What submitting the login page does. */
  datatype PageOutcome =
    | Rejected                                 // the form schema refused the input; nothing is called
    | Navigate(route: string)                  // login returned: go to the dashboard
    | ShowToast(toast: Toast)                  // login threw: show its message, stay on the page

  /** The page's outcome together with the auth state it leaves. */
  function SubmitLogin(state: AuthState, f: LoginForm): (r: (PageOutcome, AuthState))
    ensures !ValidLoginForm(f) ==> r == (Rejected, state)
    ensures ValidLoginForm(f) && Login(f.username, f.password).LoggedIn? ==>
              r.0 == Navigate("/dashboard") && r.1 == Some(Login(f.username, f.password).user)
    ensures ValidLoginForm(f) && Login(f.username, f.password).Refused? ==>
              r.0 == ShowToast(Toast(true, "Login Failed", InvalidCredentials)) && r.1 == state
  {
    if !ValidLoginForm(f) then (Rejected, state)
    else match Login(f.username, f.password)
      case LoggedIn(u) => (Navigate("/dashboard"), Some(u))
      case Refused(message) => (ShowToast(Toast(true, "Login Failed", message)), state)
  }

  /** The page navigates exactly when the credentials are one of the two accounts. */
  lemma NavigatesIffKnownAccount(state: AuthState, f: LoginForm)
    ensures SubmitLogin(state, f).0.Navigate? <==>
              ((f.username == AdminUsername && f.password == AdminPassword)
               || (f.username == VisitorUsername && f.password == VisitorPassword))
  {
  }
}

=== FILE: dashboard.dfy ===
/**
 * The two ranked lists on the dashboard: the five largest debtors
 * (src/components/dashboard/top-debtors.tsx) and the five most recently enrolled
 * students (src/components/dashboard/recent-students.tsx).
 */
module Dashboard {
  import opened Wrappers
  import opened Dates
  import opened Sorting
  import opened Entities

  /** Both cards show at most this many students. */
  const ListSize: nat := 5

  predicate IsDebtor(s: Student) {
    s.balance < 0
  }

  function Balance(s: Student): int {
    s.balance
  }

  /** `students.filter(s => s.balance < 0).sort((a, b) => a.balance - b.balance).slice(0, 5)`. */
  function TopDebtors(students: seq<Student>): (r: seq<Student>)
    ensures |r| <= ListSize
    ensures forall i :: 0 <= i < |r| ==> r[i].balance < 0
    ensures forall i, j :: 0 <= i < j < |r| ==> r[i].balance <= r[j].balance
    ensures multiset(r) <= multiset(students)
  {
    var sorted := SortBy(Filter(students, IsDebtor), Balance);
    TakeOfSortedFilter(students, IsDebtor, Balance, ListSize);
    TakeSortedIsLeast(sorted, ListSize, Balance);
    Take(sorted, ListSize)
  }

  /**
   * The list is the five largest debts: a debtor left out owes no more than any
   * listed one, and with fewer than five debtors every debtor is listed.
   */
  lemma TopDebtorsAreLargest(students: seq<Student>)
    ensures var r := TopDebtors(students);
            forall x :: x in multiset(Filter(students, IsDebtor)) - multiset(r) ==>
              forall i :: 0 <= i < |r| ==> r[i].balance <= x.balance
    ensures |Filter(students, IsDebtor)| < ListSize ==>
              multiset(TopDebtors(students)) == multiset(Filter(students, IsDebtor))
  {
    var debtors := Filter(students, IsDebtor);
    var sorted := SortBy(debtors, Balance);
    TakeSortedIsLeast(sorted, ListSize, Balance);
  }

  /** Every student has a readable enrolment date. */
  predicate AllDated(students: seq<Student>) {
    forall i :: 0 <= i < |students| ==> students[i].enrollmentDate.Some?
  }

  /** No student has a readable enrolment date: each `getTime()` is NaN. */
  predicate NoneDated(students: seq<Student>) {
    forall i :: 0 <= i < |students| ==> students[i].enrollmentDate.None?
  }

  /** The day number of a readable enrolment date; only read when every student has one. */
  function EnrolledDay(s: Student): int {
    if s.enrollmentDate.Some? then DayNumber(s.enrollmentDate.value) else 0
  }

  function EnrolledKey(s: Student): int {
    -EnrolledDay(s)
  }

  /**
   * `[...students].sort((a, b) => time(b.enrollmentDate) - time(a.enrollmentDate)).slice(0, 5)`.
   * A comparison involving NaN counts as equal, so when no student has a
   * readable date the stable sort keeps the input order. When only some have
   * one the comparator is inconsistent and the order is the engine's choice;
   * that case gives `None`, and `AnyEngineOrder` states what still holds.
   */
  function RecentStudents(students: seq<Student>): (r: Option<seq<Student>>)
    ensures r.None? <==> !AllDated(students) && !NoneDated(students)
    ensures NoneDated(students) ==> r == Some(students[..if |students| <= ListSize then |students| else ListSize])
    ensures r.Some? ==> |r.value| <= ListSize && (|students| <= ListSize ==> |r.value| == |students|)
    ensures r.Some? ==> multiset(r.value) <= multiset(students)
    ensures AllDated(students) ==> r.Some?
    ensures AllDated(students) ==>
              forall i, j :: 0 <= i < j < |r.value| ==> EnrolledDay(r.value[i]) >= EnrolledDay(r.value[j])
  {
    if NoneDated(students) then
      var k := if |students| <= ListSize then |students| else ListSize;
      assert students == students[..k] + students[k..];
      Some(students[..k])
    else if AllDated(students) then
      var sorted := SortBy(students, EnrolledKey);
      TakeSortedIsLeast(sorted, ListSize, EnrolledKey);
      Some(Take(sorted, ListSize))
    else None
  }

  /**
   * Whatever arrangement the engine picks is a permutation of the students, so
   * even with mixed dates the card shows at most five students, drawn from the
   * input, and all of them when there are at most five.
   */
  lemma AnyEngineOrder(students: seq<Student>, arranged: seq<Student>)
    requires multiset(arranged) == multiset(students)
    ensures |Take(arranged, ListSize)| <= ListSize
    ensures |students| <= ListSize ==> multiset(Take(arranged, ListSize)) == multiset(students)
    ensures multiset(Take(arranged, ListSize)) <= multiset(students)
  {
    var r := Take(arranged, ListSize);
    assert |arranged| == |students| by {
      assert |multiset(arranged)| == |multiset(students)|;
    }
    assert arranged == r + arranged[|r|..];
  }

  /**
   * With every date readable, the list is the five latest enrolments: a student
   * left out enrolled no later than any listed one, and with at most five
   * students all are shown.
   */
  lemma RecentStudentsAreLatest(students: seq<Student>)
    ensures AllDated(students) ==>
              var r := RecentStudents(students).value;
              forall x :: x in multiset(students) - multiset(r) ==>
                forall i :: 0 <= i < |r| ==> EnrolledDay(x) <= EnrolledDay(r[i])
    ensures AllDated(students) && |students| <= ListSize ==>
              multiset(RecentStudents(students).value) == multiset(students)
  {
    if AllDated(students) && !NoneDated(students) {
      var sorted := SortBy(students, EnrolledKey);
      TakeSortedIsLeast(sorted, ListSize, EnrolledKey);
    } else if AllDated(students) {
      assert students == [];
    }
  }

  /**
   * The eight seed students of src/lib/data.ts. The seed records have no
   * enrolment date and no payment type, and their avatar comes from an image
   * lookup; the payment type and avatar are parameters, which neither card reads.
   */
  function SeedStudents(pay: PaymentType, avatar: string): seq<Student> {
    [ Student("stu1", "Alice Johnson", 5, None, -150, 300, false, avatar, pay, Some("2013-04-12")),
      Student("stu2", "Bob Williams", 7, None, 50, 350, false, avatar, pay, Some("2011-08-22")),
      Student("stu3", "Charlie Brown", 5, None, -300, 300, false, avatar, pay, Some("2013-01-30")),
      Student("stu4", "Diana Miller", 8, None, 0, 400, false, avatar, pay, Some("2010-11-05")),
      Student("stu5", "Ethan Davis", 7, None, -700, 350, false, avatar, pay, Some("2011-06-18")),
      Student("stu6", "Fiona Garcia", 9, None, 100, 450, true, avatar, pay, Some("2009-09-09")),
      Student("stu7", "George Clark", 5, None, 0, 300, false, avatar, pay, Some("2013-02-15")),
      Student("stu8", "Hannah Lewis", 7, None, -50, 350, false, avatar, pay, Some("2011-10-01")) ]
  }

  /** On the seed data the card lists Ethan Davis, Charlie Brown, Alice Johnson, Hannah Lewis. */
  lemma SeedTopDebtors(pay: PaymentType, avatar: string)
    ensures var r := TopDebtors(SeedStudents(pay, avatar));
            && |r| == 4
            && r[0].fullName == "Ethan Davis" && r[0].balance == -700
            && r[1].fullName == "Charlie Brown" && r[1].balance == -300
            && r[2].fullName == "Alice Johnson" && r[2].balance == -150
            && r[3].fullName == "Hannah Lewis" && r[3].balance == -50
  {
    var s := SeedStudents(pay, avatar);
    SeedRanking(s);
  }

  /**
   * No seed student has an enrolment date, so the recent-students card shows
   * the first five seed students in their seed order.
   */
  lemma SeedRecentStudents(pay: PaymentType, avatar: string)
    ensures var r := RecentStudents(SeedStudents(pay, avatar));
            && r.Some? && |r.value| == 5
            && r.value[0].fullName == "Alice Johnson" && r.value[1].fullName == "Bob Williams"
            && r.value[2].fullName == "Charlie Brown" && r.value[3].fullName == "Diana Miller"
            && r.value[4].fullName == "Ethan Davis"
  {
    var s := SeedStudents(pay, avatar);
    assert NoneDated(s);
  }

  /** Eight students with the seed's balances are ranked fifth, third, first, eighth. */
  lemma SeedRanking(s: seq<Student>)
    requires |s| == 8
    requires s[0].balance == -150 && s[1].balance >= 0 && s[2].balance == -300 && s[3].balance >= 0
    requires s[4].balance == -700 && s[5].balance >= 0 && s[6].balance >= 0 && s[7].balance == -50
    ensures TopDebtors(s) == [s[4], s[2], s[0], s[7]]
  {
    SeedDebtorsFiltered(s);
    SortFourDistinct(s[0], s[2], s[4], s[7], Balance);
  }

  /** Four elements with keys `c < b < a < d` sort to `[c, b, a, d]`. */
  lemma SortFourDistinct<T>(a: T, b: T, c: T, d: T, key: T -> int)
    requires key(c) < key(b) < key(a) < key(d)
    ensures SortBy([a, b, c, d], key) == [c, b, a, d]
  {
    var t := [c, b, a, d];
    assert StrictlySortedBy(t, key) by {
      forall i, j | 0 <= i < j < |t|
        ensures key(t[i]) < key(t[j])
      {
      }
    }
    assert multiset([a, b, c, d]) == multiset(t);
    SortedPermutationUnique(SortBy([a, b, c, d], key), t, key);
  }

  lemma SeedDebtorsFiltered(s: seq<Student>)
    requires |s| == 8
    requires s[0].balance < 0 && s[1].balance >= 0 && s[2].balance < 0 && s[3].balance >= 0
    requires s[4].balance < 0 && s[5].balance >= 0 && s[6].balance >= 0 && s[7].balance < 0
    ensures Filter(s, IsDebtor) == [s[0], s[2], s[4], s[7]]
  {
    assert s == s[..4] + s[4..];
    FilterAppend(s[..4], s[4..], IsDebtor);
    FirstSeedHalf(s[..4]);
    SecondSeedHalf(s[4..]);
  }

  lemma FirstSeedHalf(t: seq<Student>)
    requires |t| == 4
    requires t[0].balance < 0 && t[1].balance >= 0 && t[2].balance < 0 && t[3].balance >= 0
    ensures Filter(t, IsDebtor) == [t[0], t[2]]
  {
    assert t[4..] == [];
    FilterAt(t, 3, IsDebtor);
    FilterAt(t, 2, IsDebtor);
    FilterAt(t, 1, IsDebtor);
    FilterAt(t, 0, IsDebtor);
    assert t[0..] == t;
  }

  lemma SecondSeedHalf(t: seq<Student>)
    requires |t| == 4
    requires t[0].balance < 0 && t[1].balance >= 0 && t[2].balance >= 0 && t[3].balance < 0
    ensures Filter(t, IsDebtor) == [t[0], t[3]]
  {
    assert t[4..] == [];
    FilterAt(t, 3, IsDebtor);
    FilterAt(t, 2, IsDebtor);
    FilterAt(t, 1, IsDebtor);
    FilterAt(t, 0, IsDebtor);
    assert t[0..] == t;
  }
}

=== FILE: dates.dfy ===
/**
 * Civil calendar dates. The screens read dates as `YYYY-MM-DD` strings and
 * compare them through JavaScript `Date` objects; the model works on civil
 * (year, month, day) triples with an explicit day count since 1970-01-01, the
 * origin of `Date.getTime`, so no time zone enters the computation.
 */
module Dates {
  import opened Wrappers
  import opened Decimal

  /** A civil date; `month` runs 1..12 (the source's `getMonth()` is `month - 1`). */
  datatype Date = Date(year: int, month: int, day: int)

  predicate IsLeapYear(y: int) {
    (y % 4 == 0 && y % 100 != 0) || y % 400 == 0
  }

  function MonthLength(y: int, m: int): (n: int)
    requires 1 <= m <= 12
    ensures 28 <= n <= 31
    ensures m == 2 ==> (n == 29 <==> IsLeapYear(y))
  {
    if m == 2 then (if IsLeapYear(y) then 29 else 28)
    else if m == 4 || m == 6 || m == 9 || m == 11 then 30
    else 31
  }

  predicate ValidDate(d: Date) {
    1 <= d.month <= 12 && 1 <= d.day <= MonthLength(d.year, d.month)
  }

  /** A date that exists on the calendar; stored records and form inputs carry these. */
  type CivilDate = d: Date | ValidDate(d) witness Date(1970, 1, 1)

  function YearLength(y: int): int {
    if IsLeapYear(y) then 366 else 365
  }

  /** Days of year `y` that precede the first of month `m`. */
  function DaysBeforeMonth(y: int, m: int): int
    requires 1 <= m <= 12
  {
    if m == 1 then 0 else DaysBeforeMonth(y, m - 1) + MonthLength(y, m - 1)
  }

  /** Leap years in the proleptic Gregorian calendar from year 1 up to, not including, `y`. */
  function LeapsBefore(y: int): int {
    (y - 1) / 4 - (y - 1) / 100 + (y - 1) / 400
  }

  /** Days from 1970-01-01 to the first of January of year `y`. */
  function DaysBeforeYear(y: int): int {
    365 * (y - 1970) + LeapsBefore(y) - LeapsBefore(1970)
  }

  /** Days since 1970-01-01: the date's `getTime()` divided by the length of a day. */
  function DayNumber(d: Date): int
    requires ValidDate(d)
  {
    DaysBeforeYear(d.year) + DaysBeforeMonth(d.year, d.month) + d.day - 1
  }

  /** The calendar day after `d`. */
  function NextDay(d: Date): (e: Date)
    requires ValidDate(d)
    ensures ValidDate(e)
  {
    if d.day < MonthLength(d.year, d.month) then Date(d.year, d.month, d.day + 1)
    else if d.month < 12 then Date(d.year, d.month + 1, 1)
    else Date(d.year + 1, 1, 1)
  }

  lemma DivStep(a: int, k: int)
    requires k == 4 || k == 100 || k == 400
    ensures a / k - (a - 1) / k == if a % k == 0 then 1 else 0
  {
    var q, r := a / k, a % k;
    if r == 0 {
      DivUnique(a - 1, k, q - 1, k - 1);
    } else {
      DivUnique(a - 1, k, q, r - 1);
    }
  }

  /** Euclidean division is determined by quotient and remainder. */
  lemma DivUnique(n: int, k: int, q: int, r: int)
    requires k == 4 || k == 100 || k == 400
    requires 0 <= r < k && n == k * q + r
    ensures n / k == q
  {
  }

  lemma LeapsStep(y: int)
    ensures LeapsBefore(y + 1) - LeapsBefore(y) == if IsLeapYear(y) then 1 else 0
  {
    DivStep(y, 4);
    DivStep(y, 100);
    DivStep(y, 400);
    if y % 400 == 0 {
      var q := y / 400;
      assert y == 100 * (4 * q) + 0;
      assert y == 4 * (100 * q) + 0;
    } else if y % 100 == 0 {
      var q := y / 100;
      assert y == 4 * (25 * q) + 0;
    }
  }

  lemma DaysBeforeDecember(y: int)
    ensures DaysBeforeMonth(y, 12) + 31 == YearLength(y)
  {
    var feb := MonthLength(y, 2);
    assert DaysBeforeMonth(y, 2) == 31;
    assert DaysBeforeMonth(y, 3) == 31 + feb;
    assert DaysBeforeMonth(y, 4) == 62 + feb;
    assert DaysBeforeMonth(y, 5) == 92 + feb;
    assert DaysBeforeMonth(y, 6) == 123 + feb;
    assert DaysBeforeMonth(y, 7) == 153 + feb;
    assert DaysBeforeMonth(y, 8) == 184 + feb;
    assert DaysBeforeMonth(y, 9) == 215 + feb;
    assert DaysBeforeMonth(y, 10) == 245 + feb;
    assert DaysBeforeMonth(y, 11) == 276 + feb;
    assert DaysBeforeMonth(y, 12) == 306 + feb;
  }

  /** Consecutive calendar days have consecutive day numbers: the count has no gaps or repeats. */
  lemma NextDayNumber(d: Date)
    requires ValidDate(d)
    ensures DayNumber(NextDay(d)) == DayNumber(d) + 1
  {
    if d.day == MonthLength(d.year, d.month) && d.month == 12 {
      LeapsStep(d.year);
      DaysBeforeDecember(d.year);
    }
  }

  /** JavaScript's `getDay()`: 0 is Sunday; 1970-01-01 was a Thursday (4). */
  function JsWeekDay(d: Date): (w: int)
    requires ValidDate(d)
    ensures 0 <= w < 7
  {
    (DayNumber(d) + 4) % 7
  }

  /** `(getDay() + 6) % 7`: a Monday-first weekday index (add-attendance-dialog.tsx line 78). */
  function MondayIndex(d: Date): (i: int)
    requires ValidDate(d)
    ensures 0 <= i < 7
    ensures JsWeekDay(d) == (i + 1) % 7
    ensures i == 0 <==> JsWeekDay(d) == 1
    ensures i == 6 <==> JsWeekDay(d) == 0
  {
    (JsWeekDay(d) + 6) % 7
  }

  const WeekDayNames: seq<string> :=
    ["Monday", "Tuesday", "Wednesday", "Thursday", "Friday", "Saturday", "Sunday"]

  /** The name `weekDays[dayIndex]` the attendance dialog looks schedules up by. */
  function WeekDayName(d: Date): string
    requires ValidDate(d)
  {
    WeekDayNames[MondayIndex(d)]
  }

  /**
   * `new Date(year, monthIndex, day)` of a date's UTC fields, in local time. A
   * year in 0..99 is read as 1900 + year, and a day past the end of its month
   * rolls over into the next. Years 1..99 keep their leap days in 1901..1999,
   * so only 0000-02-29 rolls over, to 1900-03-01.
   */
  function LocalConstruct(d: Date): (r: Date)
    requires ValidDate(d)
    ensures ValidDate(r)
    ensures (d.year < 0 || 100 <= d.year) ==> r == d
    ensures 0 <= d.year < 100 ==> r.year == d.year + 1900
    ensures 0 <= d.year < 100 ==> DayNumber(r) == DayNumber(Date(d.year + 1900, d.month, 1)) + d.day - 1
  {
    if 0 <= d.year < 100 then
      if d.month == 2 && d.day == 29 && !IsLeapYear(d.year + 1900) then Date(d.year + 1900, 3, 1)
      else Date(d.year + 1900, d.month, d.day)
    else d
  }

  /**
   * The weekday the attendance sheet shows for a two-digit year is that of the
   * same day in the 1900s: 0050-01-01 is looked up as 1950-01-01, a Sunday, and
   * the leap day of year 0 as 1900-03-01, a Thursday.
   */
  lemma TwoDigitYears()
    ensures WeekDayName(LocalConstruct(Date(50, 1, 1))) == "Sunday"
    ensures WeekDayName(Date(50, 1, 1)) == "Saturday"
    ensures LocalConstruct(Date(0, 2, 29)) == Date(1900, 3, 1)
    ensures WeekDayName(LocalConstruct(Date(0, 2, 29))) == "Thursday"
  {
    assert DayNumber(Date(1950, 1, 1)) == -7305;
    assert DayNumber(Date(50, 1, 1)) == -701265;
    assert DayNumber(Date(1900, 3, 1)) == -25508;
  }

  /** The index advances by one, cyclically, from each day to the next. */
  lemma MondayIndexStep(d: Date)
    requires ValidDate(d)
    ensures MondayIndex(NextDay(d)) == (MondayIndex(d) + 1) % 7
  {
    NextDayNumber(d);
    var n := DayNumber(d);
    assert DayNumber(NextDay(d)) == n + 1;
    WeekStep(n);
  }

  lemma WeekStep(n: int)
    ensures ((n + 1 + 4) % 7 + 6) % 7 == (((n + 4) % 7 + 6) % 7 + 1) % 7
  {
    ModSucc(n + 4);
    assert n + 1 + 4 == (n + 4) + 1;
  }

  /** The remainder modulo 7 steps with its argument. */
  lemma ModSucc(m: int)
    ensures (m + 1) % 7 == (m % 7 + 1) % 7
  {
    var q, r := m / 7, m % 7;
    if r < 6 {
      ModUnique(m + 1, q, r + 1);
    } else {
      ModUnique(m + 1, q + 1, 0);
    }
  }

  lemma ModUnique(m: int, q: int, r: int)
    requires 0 <= r < 7 && m == 7 * q + r
    ensures m % 7 == r
  {
  }

  lemma KnownWeekDays()
    ensures WeekDayName(Date(1970, 1, 1)) == "Thursday"
    ensures WeekDayName(Date(2024, 6, 17)) == "Monday"
    ensures WeekDayName(Date(2024, 6, 23)) == "Sunday"
    ensures WeekDayName(Date(2000, 2, 29)) == "Tuesday"
  {
    assert DayNumber(Date(2024, 6, 17)) == 19891;
    assert DayNumber(Date(2024, 6, 23)) == 19897;
    assert DayNumber(Date(2000, 2, 29)) == 11016;
  }

  /** The `YYYY-MM-DD` text of a date, as `toISOString().split("T")[0]` prints it. */
  function FormatIso(d: Date): (s: string)
    requires ValidDate(d) && 0 <= d.year <= 9999
    ensures |s| == 10
  {
    PadDigits(d.year, 4) + "-" + PadDigits(d.month, 2) + "-" + PadDigits(d.day, 2)
  }

  predicate IsoShaped(s: string) {
    && |s| == 10 && s[4] == '-' && s[7] == '-'
    && AllDigits(s[..4]) && AllDigits(s[5..7]) && AllDigits(s[8..])
  }

  /** Reads a `YYYY-MM-DD` string; `None` for text that is not a valid calendar date. */
  function ParseIso(s: string): (r: Option<Date>)
    ensures r.Some? ==> ValidDate(r.value) && 0 <= r.value.year <= 9999
  {
    if !IsoShaped(s) then None
    else
      var d := Date(ParseDigits(s[..4]), ParseDigits(s[5..7]), ParseDigits(s[8..]));
      if ValidDate(d) then
        assert d.year < 10000 by { PadParseDigits(s[..4]); ParsePadBound(s[..4]); }
        Some(d)
      else None
  }

  lemma {:induction false} ParsePadBound(s: string)
    requires AllDigits(s)
    ensures ParseDigits(s) < Pow10(|s|)
  {
    if s != [] {
      ParsePadBound(s[..|s| - 1]);
    }
  }

  /** Formatting then parsing gives the date back. */
  lemma ParseFormatIso(d: Date)
    requires ValidDate(d) && 0 <= d.year <= 9999
    ensures ParseIso(FormatIso(d)) == Some(d)
  {
    var s := FormatIso(d);
    assert s[..4] == PadDigits(d.year, 4);
    assert s[5..7] == PadDigits(d.month, 2);
    assert s[8..] == PadDigits(d.day, 2);
    ParsePadDigits(d.year, 4);
    ParsePadDigits(d.month, 2);
    ParsePadDigits(d.day, 2);
  }

  /** A string that parses is exactly the formatted text of its date. */
  lemma FormatParseIso(s: string)
    requires ParseIso(s).Some?
    ensures FormatIso(ParseIso(s).value) == s
  {
    PadParseDigits(s[..4]);
    PadParseDigits(s[5..7]);
    PadParseDigits(s[8..]);
    assert s == s[..4] + "-" + s[5..7] + "-" + s[8..];
  }
}

=== FILE: decimal.dfy ===
/**
 * Decimal digit strings: the years printed into the month options of the
 * test-result dialog, the grade option values read back by `parseInt`, and the
 * four/two-digit fields of a `YYYY-MM-DD` date.
 */
module Decimal {

  predicate IsDigit(c: char) {
    '0' <= c <= '9'
  }

  predicate AllDigits(s: string) {
    forall i :: 0 <= i < |s| ==> IsDigit(s[i])
  }

  function DigitValue(c: char): (d: nat)
    requires IsDigit(c)
    ensures d < 10
  {
    (c as int) - ('0' as int)
  }

  function DigitChar(d: nat): (c: char)
    requires d < 10
    ensures IsDigit(c) && DigitValue(c) == d
  {
    (('0' as int) + d) as char
  }

  /** The number written by a string of decimal digits (most significant first). */
  function ParseDigits(s: string): nat
    requires AllDigits(s)
  {
    if s == [] then 0 else ParseDigits(s[..|s| - 1]) * 10 + DigitValue(s[|s| - 1])
  }

  function Pow10(k: nat): (p: nat)
    ensures p >= 1
  {
    if k == 0 then 1 else 10 * Pow10(k - 1)
  }

  /** `n` written with exactly `width` digits, zero-padded on the left. */
  function PadDigits(n: nat, width: nat): (s: string)
    ensures |s| == width && AllDigits(s)
  {
    if width == 0 then [] else PadDigits(n / 10, width - 1) + [DigitChar(n % 10)]
  }

  /** `n` written in decimal without leading zeros, as `${n}` / `String(n)` does. */
  function NatToString(n: nat): (s: string)
    ensures |s| >= 1 && AllDigits(s)
    ensures n >= 10 ==> s[0] != '0'
  {
    if n < 10 then [DigitChar(n)] else NatToString(n / 10) + [DigitChar(n % 10)]
  }

  lemma {:induction false} ParsePadDigits(n: nat, width: nat)
    requires n < Pow10(width)
    ensures ParseDigits(PadDigits(n, width)) == n
  {
    if width > 0 {
      var s := PadDigits(n, width);
      assert s[..|s| - 1] == PadDigits(n / 10, width - 1);
      ParsePadDigits(n / 10, width - 1);
    }
  }

  lemma {:induction false} PadParseDigits(s: string)
    requires AllDigits(s)
    ensures PadDigits(ParseDigits(s), |s|) == s
  {
    if s != [] {
      var init := s[..|s| - 1];
      var n := ParseDigits(s);
      assert n / 10 == ParseDigits(init) && n % 10 == DigitValue(s[|s| - 1]);
      PadParseDigits(init);
      assert s == init + [s[|s| - 1]];
    }
  }

  /** Reading back the decimal form of a number gives that number. */
  lemma {:induction false} ParseNatToString(n: nat)
    ensures ParseDigits(NatToString(n)) == n
  {
    if n >= 10 {
      var s := NatToString(n);
      assert s[..|s| - 1] == NatToString(n / 10);
      ParseNatToString(n / 10);
    }
  }
}

=== FILE: edit_hours.dfy ===
/**
 * The hours editor for one staff member (src/components/dialogs/edit-hours-dialog.tsx):
 * it lists this month's worked days in date order, lets each day's hours be
 * changed, and merges the edits back into the month's records on submit.
 */
module EditHours {
  import opened Wrappers
  import opened Dates
  import opened Sorting
  import opened Entities

  /** One row of the editor: a day and its hours. */
  datatype HoursRow = HoursRow(date: CivilDate, hours: int)

  predicate ValidRow(row: HoursRow) {
    0 <= row.hours <= MaxDayHalfHours
  }

  /** A record of this staff member dated in today's calendar month and year. */
  predicate InMonthOf(a: Attendance, staffId: string, today: CivilDate) {
    a.staffId == staffId && a.date.year == today.year && a.date.month == today.month
  }

  function MonthRecords(attendance: seq<Attendance>, staffId: string, today: CivilDate): seq<Attendance> {
    Filter(attendance, (a: Attendance) => InMonthOf(a, staffId, today))
  }

  lemma MonthRecordsMembers(attendance: seq<Attendance>, staffId: string, today: CivilDate)
    ensures forall a :: a in MonthRecords(attendance, staffId, today) <==> a in attendance && InMonthOf(a, staffId, today)
  {
    FilterMembers(attendance, (a: Attendance) => InMonthOf(a, staffId, today));
  }

  function AttendanceDay(a: Attendance): int {
    DayNumber(a.date)
  }

  function RowDay(row: HoursRow): int {
    DayNumber(row.date)
  }

  /** The row a record is shown as; missing hours show as 0 (`record.hours || 0`). */
  function RowOf(a: Attendance): HoursRow {
    HoursRow(a.date, a.hours.GetOr(0))
  }

  function RowsOf(records: seq<Attendance>): (rows: seq<HoursRow>)
    ensures |rows| == |records|
    ensures forall i :: 0 <= i < |rows| ==> rows[i] == RowOf(records[i])
  {
    if records == [] then [] else [RowOf(records[0])] + RowsOf(records[1..])
  }

  predicate Worked(row: HoursRow) {
    row.hours > 0
  }

  /** The rows the open editor shows for `staff`: none when closed or without a staff member. */
  function ShownRows(isOpen: bool, staff: Option<Staff>, attendance: seq<Attendance>, today: CivilDate): (rows: seq<HoursRow>)
    ensures !isOpen || staff.None? ==> rows == []
    ensures forall i :: 0 <= i < |rows| ==> rows[i].hours > 0
    ensures forall i, j :: 0 <= i < j < |rows| ==> DayNumber(rows[i].date) <= DayNumber(rows[j].date)
    ensures isOpen && staff.Some? ==>
      forall row :: row in rows <==>
        exists a :: a in attendance && InMonthOf(a, staff.value.id, today) && row == RowOf(a) && row.hours > 0
    ensures isOpen && staff.Some? ==>
      multiset(rows) == multiset(Filter(RowsOf(MonthRecords(attendance, staff.value.id, today)), Worked))
  {
    if !isOpen || staff.None? then []
    else
      ShownRowsFacts(attendance, staff.value.id, today);
      ShownRowsCounts(attendance, staff.value.id, today);
      MonthRows(attendance, staff.value.id, today)
  }

  /** The month's records sorted by date, as rows, with the zero-hour days left out. */
  function MonthRows(attendance: seq<Attendance>, staffId: string, today: CivilDate): seq<HoursRow> {
    Filter(RowsOf(SortBy(MonthRecords(attendance, staffId, today), AttendanceDay)), Worked)
  }

  lemma ShownRowsFacts(attendance: seq<Attendance>, staffId: string, today: CivilDate)
    ensures var rows := MonthRows(attendance, staffId, today);
            forall i, j :: 0 <= i < j < |rows| ==> DayNumber(rows[i].date) <= DayNumber(rows[j].date)
    ensures var rows := MonthRows(attendance, staffId, today);
            forall row :: row in rows <==>
              exists a :: a in attendance && InMonthOf(a, staffId, today) && row == RowOf(a) && row.hours > 0
  {
    var month := MonthRecords(attendance, staffId, today);
    var sorted := SortBy(month, AttendanceDay);
    var rows := MonthRows(attendance, staffId, today);
    var all := RowsOf(sorted);
    assert SortedBy(all, RowDay);
    FilterSorted(all, Worked, RowDay);
    FilterMembers(all, Worked);
    MonthRecordsMembers(attendance, staffId, today);
    SameMembers(month, sorted);
    forall row | row in rows
      ensures exists a :: a in attendance && InMonthOf(a, staffId, today) && row == RowOf(a) && row.hours > 0
    {
      ShownRowFromRecord(sorted, row);
    }
    forall a | a in attendance && InMonthOf(a, staffId, today) && RowOf(a).hours > 0
      ensures RowOf(a) in rows
    {
      RecordShown(sorted, a);
    }
  }

  /**
   * One row per worked record: the shown rows are, counted with multiplicity,
   * the worked rows of the month's records in their stored order.
   */
  lemma ShownRowsCounts(attendance: seq<Attendance>, staffId: string, today: CivilDate)
    ensures multiset(MonthRows(attendance, staffId, today)) ==
              multiset(Filter(RowsOf(MonthRecords(attendance, staffId, today)), Worked))
  {
    var month := MonthRecords(attendance, staffId, today);
    var sorted := SortBy(month, AttendanceDay);
    RowsOfPermutation(sorted, month);
    FilterCounts(RowsOf(sorted), Worked);
    FilterCounts(RowsOf(month), Worked);
    var a, b := multiset(Filter(RowsOf(sorted), Worked)), multiset(Filter(RowsOf(month), Worked));
    assert forall x :: a[x] == b[x];
  }

  lemma {:induction false} RowsOfAppend(a: seq<Attendance>, b: seq<Attendance>)
    ensures RowsOf(a + b) == RowsOf(a) + RowsOf(b)
  {
    var l, r := RowsOf(a + b), RowsOf(a) + RowsOf(b);
    assert |l| == |r|;
    forall i | 0 <= i < |l|
      ensures l[i] == r[i]
    {
      if i < |a| {
        assert (a + b)[i] == a[i];
      } else {
        assert (a + b)[i] == b[i - |a|];
      }
    }
  }

  /** Records that are a permutation of each other show rows that are a permutation of each other. */
  lemma {:induction false} RowsOfPermutation(s: seq<Attendance>, t: seq<Attendance>)
    requires multiset(s) == multiset(t)
    ensures multiset(RowsOf(s)) == multiset(RowsOf(t))
    decreases |s|
  {
    if s != [] {
      var j := PermutationIndex(s, t);
      var rest := t[..j] + t[j + 1..];
      RowsOfPermutation(s[1..], rest);
      RowsOfRemoveBoth(s, t, j);
    } else {
      assert t == [] by {
        assert |t| == |multiset(t)|;
      }
    }
  }

  /** Where the head of `s` sits in its permutation `t`, and what is left of both once it is taken out. */
  lemma PermutationIndex<T>(s: seq<T>, t: seq<T>) returns (j: int)
    requires s != [] && multiset(s) == multiset(t)
    ensures 0 <= j < |t| && t[j] == s[0]
    ensures multiset(s[1..]) == multiset(t[..j] + t[j + 1..])
  {
    assert s[0] in multiset(t);
    j :| 0 <= j < |t| && t[j] == s[0];
    assert multiset(t[..j] + t[j + 1..]) == multiset(t) - multiset{s[0]} by {
      RemoveAt(t, j);
    }
    assert multiset(s[1..]) == multiset(s) - multiset{s[0]} by {
      assert s == [s[0]] + s[1..];
    }
  }

  lemma RowsOfRemoveBoth(s: seq<Attendance>, t: seq<Attendance>, j: int)
    requires s != [] && 0 <= j < |t| && t[j] == s[0]
    requires multiset(RowsOf(s[1..])) == multiset(RowsOf(t[..j] + t[j + 1..]))
    ensures multiset(RowsOf(s)) == multiset(RowsOf(t))
  {
    RowsOfRemoveAt(t, j);
    RowsOfRemoveAt(s, 0);
    assert s[..0] + s[1..] == s[1..];
  }

  lemma RemoveAt<T>(t: seq<T>, j: int)
    requires 0 <= j < |t|
    ensures multiset(t[..j] + t[j + 1..]) == multiset(t) - multiset{t[j]}
  {
    SplitAt(t, j);
  }

  lemma SplitAt<T>(t: seq<T>, j: int)
    requires 0 <= j < |t|
    ensures t == (t[..j] + [t[j]]) + t[j + 1..]
  {
  }

  lemma RowsOfRemoveAt(t: seq<Attendance>, j: int)
    requires 0 <= j < |t|
    ensures multiset(RowsOf(t)) == multiset(RowsOf(t[..j] + t[j + 1..])) + multiset{RowOf(t[j])}
  {
    var front, x, back := t[..j], t[j], t[j + 1..];
    SplitAt(t, j);
    RowsOfAppend(front + [x], back);
    RowsOfAppend(front, [x]);
    RowsOfAppend(front, back);
    assert RowsOf([x]) == [RowOf(x)];
    var rf, rb := RowsOf(front), RowsOf(back);
    assert RowsOf(t) == (rf + [RowOf(x)]) + rb;
    assert multiset(RowsOf(t)) == multiset(rf) + multiset{RowOf(x)} + multiset(rb);
    assert RowsOf(front + back) == rf + rb;
  }

  lemma SameMembers(month: seq<Attendance>, sorted: seq<Attendance>)
    requires multiset(sorted) == multiset(month)
    ensures forall a :: a in sorted <==> a in month
  {
    forall a ensures a in sorted <==> a in month {
      assert a in sorted <==> a in multiset(sorted);
      assert a in month <==> a in multiset(month);
    }
  }

  lemma ShownRowFromRecord(sorted: seq<Attendance>, row: HoursRow)
    requires row in RowsOf(sorted)
    ensures exists a :: a in sorted && row == RowOf(a)
  {
    var all := RowsOf(sorted);
    var k :| 0 <= k < |all| && all[k] == row;
    assert sorted[k] in sorted;
  }

  lemma RecordShown(sorted: seq<Attendance>, a: Attendance)
    requires a in sorted
    ensures RowOf(a) in RowsOf(sorted)
  {
    var k :| 0 <= k < |sorted| && sorted[k] == a;
    assert RowsOf(sorted)[k] == RowOf(a);
  }

  /**
   * `new Map(data.days.map(d => [d.date, d]))`: each edited date to its hours,
   * a later row for the same date replacing an earlier one.
   */
  function EditMap(rows: seq<HoursRow>): (m: map<CivilDate, int>)
    ensures forall i :: 0 <= i < |rows| ==> rows[i].date in m
    ensures forall d :: d in m ==> exists i :: 0 <= i < |rows| && rows[i].date == d && m[d] == rows[i].hours
  {
    if rows == [] then map[]
    else
      var last := rows[|rows| - 1];
      var m := EditMap(rows[..|rows| - 1]);
      assert forall i :: 0 <= i < |rows| - 1 ==> rows[..|rows| - 1][i] == rows[i];
      m[last.date := last.hours]
  }

  /** The value kept for a date is the one in its LAST row. */
  lemma {:induction false} LaterEditWins(rows: seq<HoursRow>, j: nat)
    requires j < |rows|
    requires forall k :: j < k < |rows| ==> rows[k].date != rows[j].date
    ensures EditMap(rows)[rows[j].date] == rows[j].hours
  {
    if j < |rows| - 1 {
      var init := rows[..|rows| - 1];
      assert init[j] == rows[j];
      LaterEditWins(init, j);
    }
  }

  function MergeDay(a: Attendance, edits: map<CivilDate, int>): DailyHours {
    if a.date in edits then DailyHours(a.date, Some(edits[a.date])) else DailyHours(a.date, a.hours)
  }

  function MergeAll(records: seq<Attendance>, edits: map<CivilDate, int>): (r: seq<DailyHours>)
    ensures |r| == |records|
    ensures forall i :: 0 <= i < |r| ==> r[i] == MergeDay(records[i], edits)
  {
    if records == [] then [] else [MergeDay(records[0], edits)] + MergeAll(records[1..], edits)
  }

  /**
   * The list submitted for `staffId`: one entry per stored record of this staff
   * member in today's month, in stored order, with edited hours where the edit
   * rows name its date and the stored hours otherwise.
   */
  function MergedHours(attendance: seq<Attendance>, staffId: string, today: CivilDate, rows: seq<HoursRow>): (r: seq<DailyHours>)
    ensures |r| == |MonthRecords(attendance, staffId, today)|
    ensures forall i :: 0 <= i < |r| ==>
              var a := MonthRecords(attendance, staffId, today)[i];
              && r[i].date == a.date
              && r[i].date.year == today.year && r[i].date.month == today.month
              && (r[i].hours == if exists k :: 0 <= k < |rows| && rows[k].date == a.date
                                then Some(EditMap(rows)[a.date]) else a.hours)
  {
    var month := MonthRecords(attendance, staffId, today);
    var r := MergeAll(month, EditMap(rows));
    assert forall i :: 0 <= i < |month| ==> InMonthOf(month[i], staffId, today) by {
      MonthRecordsMembers(attendance, staffId, today);
      forall i | 0 <= i < |month| ensures InMonthOf(month[i], staffId, today) {
        assert month[i] in month;
      }
    }
    r
  }

  /** The editor's submit: `None` when a row fails validation or there is no staff member. */
  function SubmitHours(staff: Option<Staff>, attendance: seq<Attendance>, today: CivilDate, rows: seq<HoursRow>)
    : (r: Option<(string, seq<DailyHours>)>)
    ensures r.Some? <==> staff.Some? && forall i :: 0 <= i < |rows| ==> ValidRow(rows[i])
    ensures r.Some? ==> r.value.0 == staff.value.id
    ensures r.Some? ==> forall i :: 0 <= i < |r.value.1| ==>
              r.value.1[i].date in EditMap(rows) ==>
                r.value.1[i].hours.Some? && 0 <= r.value.1[i].hours.value <= MaxDayHalfHours
  {
    if !(forall i :: 0 <= i < |rows| ==> ValidRow(rows[i])) || staff.None? then None
    else
      var merged := MergedHours(attendance, staff.value.id, today, rows);
      assert forall i :: 0 <= i < |merged| ==> merged[i].date in EditMap(rows) ==>
        exists k :: 0 <= k < |rows| && rows[k].date == merged[i].date;
      Some((staff.value.id, merged))
  }

  /** No two of this staff member's records this month share a date. */
  predicate DistinctDates(records: seq<Attendance>) {
    forall i, j :: 0 <= i < |records| && 0 <= j < |records| && records[i].date == records[j].date ==> i == j
  }

  /**
   * Submitting the editor without changing a value writes back exactly the
   * stored hours, provided the month has at most one record per date.
   */
  lemma UnchangedSubmitKeepsHours(attendance: seq<Attendance>, staff: Staff, today: CivilDate)
    requires DistinctDates(MonthRecords(attendance, staff.id, today))
    ensures var month := MonthRecords(attendance, staff.id, today);
            var merged := MergedHours(attendance, staff.id, today, ShownRows(true, Some(staff), attendance, today));
            forall i :: 0 <= i < |month| ==> merged[i] == DailyHours(month[i].date, month[i].hours)
  {
    var month := MonthRecords(attendance, staff.id, today);
    forall i | 0 <= i < |month|
      ensures MergedHours(attendance, staff.id, today, ShownRows(true, Some(staff), attendance, today))[i]
                == DailyHours(month[i].date, month[i].hours)
    {
      KeptHoursAt(attendance, staff, today, i);
    }
  }

  lemma KeptHoursAt(attendance: seq<Attendance>, staff: Staff, today: CivilDate, i: int)
    requires DistinctDates(MonthRecords(attendance, staff.id, today))
    requires 0 <= i < |MonthRecords(attendance, staff.id, today)|
    ensures var month := MonthRecords(attendance, staff.id, today);
            MergedHours(attendance, staff.id, today, ShownRows(true, Some(staff), attendance, today))[i]
              == DailyHours(month[i].date, month[i].hours)
  {
    var a := MonthRecords(attendance, staff.id, today)[i];
    if a.hours.GetOr(0) > 0 {
      ShownRecordHours(attendance, staff, today, i);
    } else {
      HiddenRecord(attendance, staff, today, i);
    }
  }

  /** A record with hours is shown, and its row is the one the edit map keeps for its date. */
  lemma ShownRecordHours(attendance: seq<Attendance>, staff: Staff, today: CivilDate, i: int)
    requires DistinctDates(MonthRecords(attendance, staff.id, today))
    requires 0 <= i < |MonthRecords(attendance, staff.id, today)|
    requires MonthRecords(attendance, staff.id, today)[i].hours.GetOr(0) > 0
    ensures var a := MonthRecords(attendance, staff.id, today)[i];
            var rows := ShownRows(true, Some(staff), attendance, today);
            && (exists k :: 0 <= k < |rows| && rows[k].date == a.date)
            && a.date in EditMap(rows) && Some(EditMap(rows)[a.date]) == a.hours
  {
    var month := MonthRecords(attendance, staff.id, today);
    var rows := ShownRows(true, Some(staff), attendance, today);
    var a := month[i];
    RowsDatedLike(attendance, staff, today, i);
    MonthRecordsMembers(attendance, staff.id, today);
    assert a in month;
    assert RowOf(a) in rows;
    var k :| 0 <= k < |rows| && rows[k] == RowOf(a);
    var m := EditMap(rows);
    assert a.date in m;
    var k2 :| 0 <= k2 < |rows| && rows[k2].date == a.date && m[a.date] == rows[k2].hours;
  }

  /** A record without hours has no row, so no row carries its date. */
  lemma HiddenRecord(attendance: seq<Attendance>, staff: Staff, today: CivilDate, i: int)
    requires DistinctDates(MonthRecords(attendance, staff.id, today))
    requires 0 <= i < |MonthRecords(attendance, staff.id, today)|
    requires MonthRecords(attendance, staff.id, today)[i].hours.GetOr(0) <= 0
    ensures var a := MonthRecords(attendance, staff.id, today)[i];
            var rows := ShownRows(true, Some(staff), attendance, today);
            !(exists k :: 0 <= k < |rows| && rows[k].date == a.date)
  {
    RowsDatedLike(attendance, staff, today, i);
  }

  /** Any row dated like the `i`-th record was shown for a record of the month with that date: that record. */
  lemma RowsDatedLike(attendance: seq<Attendance>, staff: Staff, today: CivilDate, i: int)
    requires DistinctDates(MonthRecords(attendance, staff.id, today))
    requires 0 <= i < |MonthRecords(attendance, staff.id, today)|
    ensures var a := MonthRecords(attendance, staff.id, today)[i];
            var rows := ShownRows(true, Some(staff), attendance, today);
            forall k :: 0 <= k < |rows| && rows[k].date == a.date ==> rows[k] == RowOf(a) && rows[k].hours > 0
  {
    var month := MonthRecords(attendance, staff.id, today);
    var rows := ShownRows(true, Some(staff), attendance, today);
    var a := month[i];
    MonthRecordsMembers(attendance, staff.id, today);
    forall k | 0 <= k < |rows| && rows[k].date == a.date
      ensures rows[k] == RowOf(a) && rows[k].hours > 0
    {
      assert rows[k] in rows;
      var b :| b in attendance && InMonthOf(b, staff.id, today) && rows[k] == RowOf(b) && rows[k].hours > 0;
      assert b in month;
      var jb :| 0 <= jb < |month| && month[jb] == b;
    }
  }
}

=== FILE: entities.dfy ===
/**
 * The records the school dashboard keeps (src/lib/types.ts), with the fields the
 * dialogs read although the type file omits them: a staff member's `salary`,
 * `hoursWorked` and `workSchedule`, a student's `dateOfBirth`. A student's
 * `enrollmentDate` is `None` when it is missing or is text `new Date` cannot
 * read, which is the case for every seed student and every added one.
 * Money is in whole so'm and hours are counted in HALF-hours, the step of the
 * hours inputs, so every quantity is an integer.
 */
module Entities {
  import opened Wrappers
  import opened Dates

  /** 24 hours, in half-hours: the upper bound of every hours input. */
  const MaxDayHalfHours := 48

  /** A position's pay basis (the source's `type: 'hourly' | 'monthly'`). */
  datatype PositionType = Hourly | Monthly

  /** A student's billing cycle (`'monthly' | 'anniversary'`). */
  datatype PaymentType = CalendarMonthly | Anniversary

  datatype Role = Admin | Visitor

  datatype Position = Position(id: string, name: string, kind: PositionType, rate: int)

  /** Hours worked on each weekday, in half-hours (the `{ Mon, Tue, Wed, Thu, Fri }` object). */
  datatype WeekHours = WeekHours(mon: int, tue: int, wed: int, thu: int, fri: int)

  /** One entry of a staff member's weekly schedule; `day` is an English weekday name. */
  datatype WorkDay = WorkDay(day: string, isWorkingDay: bool, hours: int)

  datatype Staff = Staff(
    id: string,
    fullName: string,
    position: Position,
    avatarUrl: string,
    salary: Option<int>,
    hoursWorked: Option<WeekHours>,
    workSchedule: Option<seq<WorkDay>>)

  datatype Student = Student(
    id: string,
    fullName: string,
    grade: int,
    enrollmentDate: Option<CivilDate>,
    balance: int,
    monthlyFee: int,
    isArchived: bool,
    avatarUrl: string,
    paymentType: PaymentType,
    dateOfBirth: Option<string>)

  /** One staff member's hours on one day; stored hours may be missing. */
  datatype Attendance = Attendance(id: string, staffId: string, date: CivilDate, hours: Option<int>)

  /** A day's hours as the hours editor hands them back to the attendance page. */
  datatype DailyHours = DailyHours(date: CivilDate, hours: Option<int>)

  /** The signed-in user held by the auth context. */
  datatype User = User(username: string, role: Role)

  /** A managed account on the users page. */
  datatype UserCredentials = UserCredentials(id: string, username: string, password: string, role: Role)
}

=== FILE: forms.dfy ===
/**
 * The remaining dialogs: each form's schema as a predicate over the parsed
 * values, and what a submit hands to the page: which fields, keyed by which id,
 * and nothing when the schema refuses or no record is open. The users and
 * positions pages apply an edit by overwriting the fields of the record with
 * that id (src/app/(main)/users/page.tsx, src/app/(main)/positions/page.tsx).
 */
module Forms {
  import opened Wrappers
  import opened Dates
  import opened Entities

  // ---- string length, as zod's `min` counts it ----

  /**
   * JavaScript's `s.length`: UTF-16 code units. A character outside the Basic
   * Multilingual Plane is stored as a surrogate pair and counts twice.
   */
  function Utf16Length(s: string): (n: nat)
    ensures |s| <= n <= 2 * |s|
    ensures n == |s| <==> forall i :: 0 <= i < |s| ==> (s[i] as int) < 0x1_0000
  {
    if s == [] then 0
    else
      assert forall i :: 0 <= i < |s[1..]| ==> s[1..][i] == s[i + 1];
      (if (s[0] as int) < 0x1_0000 then 1 else 2) + Utf16Length(s[1..])
  }

  /** The length of a concatenation is the sum of the lengths. */
  lemma {:induction false} Utf16LengthAppend(a: string, b: string)
    ensures Utf16Length(a + b) == Utf16Length(a) + Utf16Length(b)
  {
    if a != [] {
      assert (a + b)[0] == a[0];
      assert (a + b)[1..] == a[1..] + b;
      Utf16LengthAppend(a[1..], b);
    } else {
      assert a + b == b;
    }
  }

  /** A non-empty string is non-empty in either count, so `min(1)` reads the same. */
  lemma NonEmptyEitherWay(s: string)
    ensures Utf16Length(s) >= 1 <==> |s| >= 1
  {
  }

  // ---- add user (src/components/dialogs/add-user-dialog.tsx) ----

  datatype UserForm = UserForm(username: string, password: string, role: Role)

  /** The role the add form starts with. */
  const DefaultRole: Role := Visitor

  predicate UsernameTaken(existing: seq<UserCredentials>, name: string) {
    exists i :: 0 <= i < |existing| && existing[i].username == name
  }

  predicate ValidNewUser(existing: seq<UserCredentials>, f: UserForm) {
    Utf16Length(f.username) >= 3 && !UsernameTaken(existing, f.username) && Utf16Length(f.password) >= 6
  }

  /** The accepted form is handed on as it is. */
  function SubmitNewUser(existing: seq<UserCredentials>, f: UserForm): (r: Option<UserForm>)
    ensures r.Some? <==> Utf16Length(f.username) >= 3 && Utf16Length(f.password) >= 6 &&
                         forall i :: 0 <= i < |existing| ==> existing[i].username != f.username
    ensures r.Some? ==> r.value == f
  {
    if ValidNewUser(existing, f) then Some(f) else None
  }

  /**
   * The users page appends the new account under the id it supplies
   * (`user-${Date.now()}`, not checked against the existing ids).
   */
  function AddUser(users: seq<UserCredentials>, f: UserForm, id: string): (r: seq<UserCredentials>)
    ensures |r| == |users| + 1 && r[..|users|] == users
    ensures r[|users|] == UserCredentials(id, f.username, f.password, f.role)
  {
    users + [UserCredentials(id, f.username, f.password, f.role)]
  }

  predicate DistinctUsernames(users: seq<UserCredentials>) {
    forall i, j :: 0 <= i < j < |users| ==> users[i].username != users[j].username
  }

  /** An accepted account keeps the usernames on the page distinct. */
  lemma AcceptedUserKeepsNamesDistinct(users: seq<UserCredentials>, f: UserForm, id: string)
    requires DistinctUsernames(users)
    requires SubmitNewUser(users, f).Some?
    ensures DistinctUsernames(AddUser(users, f, id))
  {
    var r := AddUser(users, f, id);
    forall i, j | 0 <= i < j < |r|
      ensures r[i].username != r[j].username
    {
      if j == |users| {
        assert r[i] == users[i];
      } else {
        assert r[i] == users[i] && r[j] == users[j];
      }
    }
  }

  /**
   * Two emoji make a four-unit username and three a six-unit password, so the
   * form accepts both although each has fewer characters than the minimum.
   */
  lemma AstralCharactersCountTwice(u: UserCredentials)
    ensures Utf16Length("\U{1F600}\U{1F600}") == 4
    ensures SubmitNewUser([], UserForm("\U{1F600}\U{1F600}", "\U{1F600}\U{1F600}\U{1F600}", Visitor)).Some?
    ensures SubmitPasswordEdit(Some(u), PasswordForm("\U{1F600}\U{1F600}\U{1F600}")).Some?
  {
    var two := "\U{1F600}\U{1F600}";
    assert two[1..][1..] == [];
    var three := "\U{1F600}\U{1F600}\U{1F600}";
    assert three[1..] == two;
  }

  // ---- edit user (src/components/dialogs/edit-user-dialog.tsx) ----

  datatype PasswordForm = PasswordForm(password: string)

  /** The edit form opens with the current password. */
  function PasswordPrefill(u: UserCredentials): (f: PasswordForm)
    ensures f.password == u.password
  {
    PasswordForm(u.password)
  }

  /** An edit carries the user's id and the new password, nothing else. */
  datatype PasswordUpdate = PasswordUpdate(userId: string, password: string)

  function SubmitPasswordEdit(user: Option<UserCredentials>, f: PasswordForm): (r: Option<PasswordUpdate>)
    ensures r.Some? <==> user.Some? && Utf16Length(f.password) >= 6
    ensures r.Some? ==> r.value == PasswordUpdate(user.value.id, f.password)
  {
    if user.Some? && Utf16Length(f.password) >= 6 then Some(PasswordUpdate(user.value.id, f.password)) else None
  }

  /** `users.map(u => u.id === userId ? { ...u, ...data } : u)`. */
  function ApplyPasswordUpdate(users: seq<UserCredentials>, upd: PasswordUpdate): (r: seq<UserCredentials>)
    ensures |r| == |users|
    ensures forall i :: 0 <= i < |r| ==>
              && r[i].id == users[i].id && r[i].username == users[i].username && r[i].role == users[i].role
              && r[i].password == (if users[i].id == upd.userId then upd.password else users[i].password)
  {
    if users == [] then []
    else
      var u := users[0];
      [if u.id == upd.userId then u.(password := upd.password) else u] + ApplyPasswordUpdate(users[1..], upd)
  }

  /** Saving the edit form as it opened changes no account. */
  lemma PasswordEditUnchanged(users: seq<UserCredentials>, u: UserCredentials)
    requires Utf16Length(u.password) >= 6
    requires forall i :: 0 <= i < |users| && users[i].id == u.id ==> users[i].password == u.password
    ensures SubmitPasswordEdit(Some(u), PasswordPrefill(u)).Some?
    ensures ApplyPasswordUpdate(users, SubmitPasswordEdit(Some(u), PasswordPrefill(u)).value) == users
  {
    var r := ApplyPasswordUpdate(users, PasswordUpdate(u.id, u.password));
    assert forall i :: 0 <= i < |r| ==> r[i] == users[i];
  }

  // ---- make payment (src/components/dialogs/make-payment-dialog.tsx) ----

  /** The payment form; the note may be left out. */
  datatype PaymentForm = PaymentForm(amount: int, note: Option<string>)

  datatype PaymentRequest = PaymentRequest(studentId: string, amount: int, note: string)

  function SubmitPayment(student: Option<Student>, f: PaymentForm): (r: Option<PaymentRequest>)
    ensures r.Some? <==> student.Some? && f.amount > 0
    ensures r.Some? ==> r.value.studentId == student.value.id && r.value.amount == f.amount && r.value.amount > 0
    ensures r.Some? && f.note.None? ==> r.value.note == ""
    ensures r.Some? && f.note.Some? ==> r.value.note == f.note.value
  {
    if student.Some? && f.amount > 0 then Some(PaymentRequest(student.value.id, f.amount, f.note.GetOr(""))) else None
  }

  /**
   * The request depends on the student only through its id: balance, fee and
   * archive flag are never read, and a missing note is sent as an empty one.
   */
  lemma PaymentIgnoresLedger(s1: Student, s2: Student, f: PaymentForm)
    requires s1.id == s2.id
    ensures SubmitPayment(Some(s1), f) == SubmitPayment(Some(s2), f)
    ensures SubmitPayment(Some(s1), PaymentForm(f.amount, None)) == SubmitPayment(Some(s1), PaymentForm(f.amount, Some("")))
  {
  }

  // ---- add / edit position (add-position-dialog.tsx, edit-position-dialog.tsx) ----

  datatype PositionForm = PositionForm(name: string, kind: PositionType, rate: int)

  /** The type the add form starts with. */
  const DefaultPositionType: PositionType := Monthly

  predicate ValidPositionForm(f: PositionForm) {
    |f.name| >= 1 && f.rate >= 1
  }

  function SubmitNewPosition(f: PositionForm): (r: Option<PositionForm>)
    ensures r.Some? <==> |f.name| >= 1 && f.rate >= 1
    ensures r.Some? ==> r.value == f
  {
    if ValidPositionForm(f) then Some(f) else None
  }

  /** The edit form opens with the position's name, type and rate. */
  function PositionPrefill(p: Position): (f: PositionForm)
    ensures f.name == p.name && f.kind == p.kind && f.rate == p.rate
  {
    PositionForm(p.name, p.kind, p.rate)
  }

  datatype PositionUpdate = PositionUpdate(positionId: string, data: PositionForm)

  function SubmitPositionEdit(position: Option<Position>, f: PositionForm): (r: Option<PositionUpdate>)
    ensures r.Some? <==> position.Some? && ValidPositionForm(f)
    ensures r.Some? ==> r.value == PositionUpdate(position.value.id, f)
  {
    if position.Some? && ValidPositionForm(f) then Some(PositionUpdate(position.value.id, f)) else None
  }

  /** `positions.map(p => p.id === positionId ? { ...p, ...data } : p)`. */
  function ApplyPositionUpdate(positions: seq<Position>, upd: PositionUpdate): (r: seq<Position>)
    ensures |r| == |positions|
    ensures forall i :: 0 <= i < |r| ==> r[i].id == positions[i].id
    ensures forall i :: 0 <= i < |r| && positions[i].id != upd.positionId ==> r[i] == positions[i]
    ensures forall i :: 0 <= i < |r| && positions[i].id == upd.positionId ==>
              r[i] == Position(positions[i].id, upd.data.name, upd.data.kind, upd.data.rate)
  {
    if positions == [] then []
    else
      var p := positions[0];
      [if p.id == upd.positionId then Position(p.id, upd.data.name, upd.data.kind, upd.data.rate) else p]
        + ApplyPositionUpdate(positions[1..], upd)
  }

  /** Saving a position's edit form as it opened changes no position. */
  lemma PositionEditUnchanged(positions: seq<Position>, p: Position)
    requires |p.name| >= 1 && p.rate >= 1
    requires forall i :: 0 <= i < |positions| && positions[i].id == p.id ==> positions[i] == p
    ensures SubmitPositionEdit(Some(p), PositionPrefill(p)).Some?
    ensures ApplyPositionUpdate(positions, SubmitPositionEdit(Some(p), PositionPrefill(p)).value) == positions
  {
    var r := ApplyPositionUpdate(positions, PositionUpdate(p.id, PositionPrefill(p)));
    assert forall i :: 0 <= i < |r| ==> r[i] == positions[i];
  }

  // ---- add / edit student (add-student-dialog.tsx, edit-student-dialog.tsx) ----

  /**
   * The student form: only these four fields. Id, balance, archive flag and
   * avatar are not part of it, so no submit can set them.
   */
  datatype StudentForm = StudentForm(fullName: string, grade: int, dateOfBirth: string, monthlyFee: int)

  predicate ValidStudentForm(f: StudentForm) {
    |f.fullName| >= 1 && 1 <= f.grade <= 12 && |f.dateOfBirth| >= 1 && f.monthlyFee >= 0
  }

  function SubmitNewStudent(f: StudentForm): (r: Option<StudentForm>)
    ensures r.Some? <==> |f.fullName| >= 1 && 1 <= f.grade <= 12 && |f.dateOfBirth| >= 1 && f.monthlyFee >= 0
    ensures r.Some? ==> r.value == f
  {
    if ValidStudentForm(f) then Some(f) else None
  }

  /** The edit form opens with the name, grade, date of birth (empty when missing) and fee. */
  function StudentPrefill(s: Student): (f: StudentForm)
    ensures f.fullName == s.fullName && f.grade == s.grade && f.monthlyFee == s.monthlyFee
    ensures s.dateOfBirth.Some? ==> f.dateOfBirth == s.dateOfBirth.value
    ensures s.dateOfBirth.None? ==> f.dateOfBirth == ""
  {
    StudentForm(s.fullName, s.grade, s.dateOfBirth.GetOr(""), s.monthlyFee)
  }

  datatype StudentUpdate = StudentUpdate(studentId: string, data: StudentForm)

  function SubmitStudentEdit(student: Option<Student>, f: StudentForm): (r: Option<StudentUpdate>)
    ensures r.Some? <==> student.Some? && ValidStudentForm(f)
    ensures r.Some? ==> r.value == StudentUpdate(student.value.id, f)
  {
    if student.Some? && ValidStudentForm(f) then Some(StudentUpdate(student.value.id, f)) else None
  }

  /**
   * The edit never depends on, and so never carries, the student's balance,
   * archive flag or anything else beyond the id: two students with the same id
   * give the same update for the same form.
   */
  lemma StudentEditIgnoresLedger(s1: Student, s2: Student, f: StudentForm)
    requires s1.id == s2.id
    ensures SubmitStudentEdit(Some(s1), f) == SubmitStudentEdit(Some(s2), f)
  {
  }

  /** A valid student opens a form that saves unchanged; one without a date of birth cannot be saved as it opened. */
  lemma StudentPrefillSaves(s: Student)
    requires |s.fullName| >= 1 && 1 <= s.grade <= 12 && s.monthlyFee >= 0
    ensures s.dateOfBirth.Some? && |s.dateOfBirth.value| >= 1 ==>
              SubmitStudentEdit(Some(s), StudentPrefill(s)) ==
                Some(StudentUpdate(s.id, StudentForm(s.fullName, s.grade, s.dateOfBirth.value, s.monthlyFee)))
    ensures s.dateOfBirth.None? ==> SubmitStudentEdit(Some(s), StudentPrefill(s)).None?
  {
  }

  // ---- add expense (src/components/dialogs/add-expense-dialog.tsx) ----

  datatype ExpenseForm = ExpenseForm(description: string, amount: int, date: string)

  predicate ValidExpenseForm(f: ExpenseForm) {
    |f.description| >= 1 && f.amount >= 1 && |f.date| >= 1
  }

  function SubmitExpense(f: ExpenseForm): (r: Option<ExpenseForm>)
    ensures r.Some? <==> |f.description| >= 1 && f.amount >= 1 && |f.date| >= 1
    ensures r.Some? ==> r.value == f
  {
    if ValidExpenseForm(f) then Some(f) else None
  }

  /**
   * The date the form opens with: today's UTC date as `YYYY-MM-DD`, the part of
   * `toISOString()` before the `T`. It reads back as that date.
   */
  function DefaultExpenseDate(todayUtc: CivilDate): (s: string)
    requires 0 <= todayUtc.year <= 9999
    ensures |s| == 10
    ensures ParseIso(s) == Some(todayUtc)
  {
    ParseFormatIso(todayUtc);
    FormatIso(todayUtc)
  }

  /** With a description and an amount filled in, the form is accepted on its default date. */
  lemma DefaultDateAccepted(todayUtc: CivilDate, description: string, amount: int)
    requires 0 <= todayUtc.year <= 9999
    requires |description| >= 1 && amount >= 1
    ensures SubmitExpense(ExpenseForm(description, amount, DefaultExpenseDate(todayUtc))).Some?
  {
  }
}

=== FILE: grade_lists.dfy ===
/**
 * The grade picker lists of the student table and the test-result dialog: the
 * grades that occur among the students, each once, in ascending order
 * (`[...new Set(grades)].sort((a, b) => a - b)`).
 */
module GradeLists {
  import opened Entities

  predicate StrictlyAscending(s: seq<int>) {
    forall i, j :: 0 <= i < j < |s| ==> s[i] < s[j]
  }

  /** `students.map(s => s.grade)`. */
  function GradesOf(students: seq<Student>): (r: seq<int>)
    ensures |r| == |students|
    ensures forall i :: 0 <= i < |r| ==> r[i] == students[i].grade
  {
    if students == [] then [] else [students[0].grade] + GradesOf(students[1..])
  }

  /** Adds `g` to an ascending list of distinct grades, unless it is already there. */
  function AddGrade(g: int, s: seq<int>): (r: seq<int>)
    requires StrictlyAscending(s)
    ensures StrictlyAscending(r)
    ensures forall x :: x in r <==> x in s || x == g
  {
    if s == [] || g < s[0] then [g] + s
    else if g == s[0] then s
    else
      var rest := AddGrade(g, s[1..]);
      AddGradeStep(g, s, rest);
      [s[0]] + rest
  }

  /** Past the head: the head stays in front of the grades added behind it. */
  lemma AddGradeStep(g: int, s: seq<int>, rest: seq<int>)
    requires StrictlyAscending(s) && s != [] && s[0] < g
    requires StrictlyAscending(rest)
    requires forall x :: x in rest <==> x in s[1..] || x == g
    ensures StrictlyAscending([s[0]] + rest)
    ensures forall x :: x in [s[0]] + rest <==> x in s || x == g
  {
    forall i | 0 <= i < |rest|
      ensures s[0] < rest[i]
    {
      var x := rest[i];
      assert x in rest;
      if x != g {
        var j :| 0 <= j < |s[1..]| && s[1..][j] == x;
        assert s[j + 1] == x;
      }
    }
    assert s == [s[0]] + s[1..];
  }

  /** The distinct grades, ascending. */
  function UniqueGrades(grades: seq<int>): (r: seq<int>)
    ensures StrictlyAscending(r)
    ensures forall x :: x in r <==> x in grades
  {
    if grades == [] then []
    else
      assert forall x :: x in grades <==> x == grades[0] || x in grades[1..] by {
        assert grades == [grades[0]] + grades[1..];
      }
      AddGrade(grades[0], UniqueGrades(grades[1..]))
  }

  /**
   * An ascending list without repeats is determined by its members, so the
   * picker list is THE sorted list of distinct grades, whatever the input order.
   */
  lemma {:induction false} AscendingByMembers(a: seq<int>, b: seq<int>)
    requires StrictlyAscending(a) && StrictlyAscending(b)
    requires forall x :: x in a <==> x in b
    ensures a == b
  {
    EmptyByMembers(a, b);
    if a != [] {
      assert a[0] in a;
      assert b[0] in b;
      var i :| 0 <= i < |b| && b[i] == a[0];
      var j :| 0 <= j < |a| && a[j] == b[0];
      HeadIsLeast(a, j);
      HeadIsLeast(b, i);
      forall x
        ensures x in a[1..] <==> x in b[1..]
      {
        TailMembers(a, x);
        TailMembers(b, x);
      }
      AscendingByMembers(a[1..], b[1..]);
      assert a == [a[0]] + a[1..] && b == [b[0]] + b[1..];
    }
  }

  lemma EmptyByMembers(a: seq<int>, b: seq<int>)
    requires forall x :: x in a <==> x in b
    ensures a == [] <==> b == []
  {
    if b != [] {
      var x := b[0];
      assert x in b;
      assert x in a;
      assert |a| > 0;
    }
    if a != [] {
      var x := a[0];
      assert x in a;
      assert x in b;
      assert |b| > 0;
    }
  }

  lemma HeadIsLeast(s: seq<int>, k: int)
    requires StrictlyAscending(s) && 0 <= k < |s|
    ensures s[0] <= s[k]
  {
  }

  lemma TailMembers(s: seq<int>, x: int)
    requires StrictlyAscending(s) && s != []
    ensures x in s[1..] <==> x in s && x != s[0]
  {
    if x in s[1..] {
      var j :| 0 <= j < |s[1..]| && s[1..][j] == x;
      assert s[j + 1] == x;
    }
    if x in s && x != s[0] {
      var j :| 0 <= j < |s| && s[j] == x;
      assert s[1..][j - 1] == x;
    }
  }

  /** Any ascending list of distinct values holding exactly the students' grades is the picker list. */
  lemma UniqueGradesIsTheSortedSet(students: seq<Student>, r: seq<int>)
    requires StrictlyAscending(r)
    requires forall x :: x in r <==> exists i :: 0 <= i < |students| && students[i].grade == x
    ensures r == UniqueGrades(GradesOf(students))
  {
    var u := UniqueGrades(GradesOf(students));
    forall x
      ensures x in r <==> x in u
    {
      if x in u {
        var i :| 0 <= i < |GradesOf(students)| && GradesOf(students)[i] == x;
      }
    }
    AscendingByMembers(r, u);
  }
}

=== FILE: i18n.dfy ===
/**
 * The translation lookup `t` of src/context/i18n.tsx. A key such as
 * `sidebar.dashboard` is split at every '.', and the parts are looked up one
 * level at a time in the current language's catalog; a path that breaks off
 * is looked up in English instead, and a path missing there too, or ending at
 * an empty string, yields the key itself.
 */
module I18n {
  import opened Wrappers

  /** A catalog entry: a text, or a group of named entries (a JSON object). */
  datatype Node = Leaf(text: string) | Group(children: map<string, Node>)

  datatype Language = En | Ru | Uz

  /** The language used until the user picks another. */
  const DefaultLanguage: Language := Uz

  datatype Catalog = Catalog(en: Node, ru: Node, uz: Node)

  function Root(c: Catalog, lang: Language): Node {
    match lang
    case En => c.en
    case Ru => c.ru
    case Uz => c.uz
  }

  /** JavaScript truthiness of a looked-up value: the empty string is falsy, every object truthy. */
  predicate Truthy(n: Node) {
    n.Group? || |n.text| > 0
  }

  // ---- key.split('.') ----

  /** `s.split(sep)`: the pieces between separators, at least one, possibly empty. */
  function Split(s: string, sep: char): (r: seq<string>)
    ensures |r| >= 1
    ensures forall i :: 0 <= i < |r| ==> sep !in r[i]
  {
    if s == [] then [""]
    else
      var rest := Split(s[1..], sep);
      if s[0] == sep then [""] + rest
      else
        assert sep !in [s[0]] + rest[0];
        [[s[0]] + rest[0]] + rest[1..]
  }

  /** `parts.join(sep)`. */
  function Join(parts: seq<string>, sep: char): string
    requires |parts| >= 1
  {
    if |parts| == 1 then parts[0] else parts[0] + [sep] + Join(parts[1..], sep)
  }

  /** Splitting loses nothing: joining the pieces gives the key back. */
  lemma {:induction false} JoinSplit(s: string, sep: char)
    ensures Join(Split(s, sep), sep) == s
  {
    if s != [] {
      var rest := Split(s[1..], sep);
      JoinSplit(s[1..], sep);
      if s[0] == sep {
        assert Split(s, sep) == [""] + rest;
        assert s == [sep] + s[1..];
      } else {
        JoinHead(s[0], rest, sep);
        assert s == [s[0]] + s[1..];
      }
    }
  }

  lemma JoinHead(c: char, parts: seq<string>, sep: char)
    requires |parts| >= 1
    ensures Join([[c] + parts[0]] + parts[1..], sep) == [c] + Join(parts, sep)
  {
    var q := [[c] + parts[0]] + parts[1..];
    assert q[1..] == parts[1..];
  }

  /** And pieces free of separators come back from splitting their join. */
  lemma {:induction false} SplitJoin(parts: seq<string>, sep: char)
    requires |parts| >= 1
    requires forall i :: 0 <= i < |parts| ==> sep !in parts[i]
    ensures Split(Join(parts, sep), sep) == parts
  {
    if |parts| == 1 {
      SplitPlain(parts[0], sep);
    } else {
      SplitJoin(parts[1..], sep);
      SplitPlainThenSep(parts[0], Join(parts[1..], sep), sep);
      assert parts == [parts[0]] + parts[1..];
    }
  }

  /** A piece without separators splits into itself. */
  lemma {:induction false} SplitPlain(s: string, sep: char)
    requires sep !in s
    ensures Split(s, sep) == [s]
  {
    if s != [] {
      assert sep !in s[1..] by {
        assert forall k :: 0 <= k < |s[1..]| ==> s[1..][k] == s[k + 1];
      }
      SplitPlain(s[1..], sep);
      assert s == [s[0]] + s[1..];
    }
  }

  /** A piece without separators, a separator, then anything: the piece comes off first. */
  lemma {:induction false} SplitPlainThenSep(a: string, b: string, sep: char)
    requires sep !in a
    ensures Split(a + [sep] + b, sep) == [a] + Split(b, sep)
  {
    if a == [] {
      assert a + [sep] + b == [sep] + b;
      assert ([sep] + b)[1..] == b;
    } else {
      assert sep !in a[1..] by {
        assert forall k :: 0 <= k < |a[1..]| ==> a[1..][k] == a[k + 1];
      }
      SplitPlainThenSep(a[1..], b, sep);
      var s := a + [sep] + b;
      assert s[0] == a[0] && s[1..] == a[1..] + [sep] + b;
      assert [a[0]] + a[1..] == a;
    }
  }

  // ---- nested lookup ----

  /** `result?.[k]`: a group's entry, or undefined (`None`). */
  function Step(n: Option<Node>, k: string): Option<Node> {
    match n
    case Some(Group(m)) => if k in m then Some(m[k]) else None
    case _ => None
  }

  /** Looks the path up from `n`, one part at a time. */
  function Resolve(n: Option<Node>, path: seq<string>): Option<Node>
    decreases path
  {
    if path == [] then n else Resolve(Step(n, path[0]), path[1..])
  }

  /** Looking up a path piecewise: first the front, then the rest from where it led. */
  lemma {:induction false} ResolveAppend(n: Option<Node>, a: seq<string>, b: seq<string>)
    ensures Resolve(n, a + b) == Resolve(Resolve(n, a), b)
    decreases a
  {
    if a == [] {
      assert a + b == b;
    } else {
      assert (a + b)[0] == a[0] && (a + b)[1..] == a[1..] + b;
      ResolveAppend(Step(n, a[0]), a[1..], b);
    }
  }

  /** Once a lookup breaks off, it stays undefined. */
  lemma {:induction false} ResolveFromNothing(path: seq<string>)
    ensures Resolve(None, path) == None
  {
    if path != [] {
      ResolveFromNothing(path[1..]);
    }
  }

  /** A value found at the path, or the key when it is missing or empty. */
  function Pick(found: Option<Node>, key: string): Node {
    if found.Some? && Truthy(found.value) then found.value else Leaf(key)
  }

  /**
   * `t(key)`: the current language's value at the key's path when the path
   * exists there; otherwise the English value; the key when neither exists or
   * the value found is empty.
   */
  function Translate(c: Catalog, lang: Language, key: string): (r: Node)
    ensures r == Leaf(key) || Truthy(r)
    ensures var here := Resolve(Some(Root(c, lang)), Split(key, '.'));
            && (here.Some? && Truthy(here.value) ==> r == here.value)
            && (here.Some? && !Truthy(here.value) ==> r == Leaf(key))
    ensures var here := Resolve(Some(Root(c, lang)), Split(key, '.'));
            var english := Resolve(Some(c.en), Split(key, '.'));
            here.None? ==> r == Pick(english, key)
  {
    var keys := Split(key, '.');
    var here := Resolve(Some(Root(c, lang)), keys);
    if here.Some? then Pick(here, key) else Pick(Resolve(Some(c.en), keys), key)
  }

  /**
   * The loop of the source, step by step: descend part by part; at the first
   * missing part restart from the English root and return the key at that
   * walk's first missing part. It returns what `Translate` describes.
   */
  method TranslateLoop(c: Catalog, lang: Language, key: string) returns (r: Node)
    ensures r == Translate(c, lang, key)
  {
    var keys := Split(key, '.');
    var result: Option<Node> := Some(Root(c, lang));
    var i := 0;
    while i < |keys|
      invariant 0 <= i <= |keys|
      invariant result.Some? && result == Resolve(Some(Root(c, lang)), keys[..i])
    {
      ResolveSnoc(Some(Root(c, lang)), keys, i);
      result := Step(result, keys[i]);
      if result.None? {
        ResolveBreaks(Some(Root(c, lang)), keys, i + 1);
        r := EnglishFallback(c, key, keys);
        return;
      }
      i := i + 1;
    }
    assert keys[..i] == keys;
    r := Pick(result, key);
  }

  /** The inner loop: the English walk, answering the key as soon as a part is missing. */
  method EnglishFallback(c: Catalog, key: string, keys: seq<string>) returns (r: Node)
    ensures r == Pick(Resolve(Some(c.en), keys), key)
  {
    var fallback: Option<Node> := Some(c.en);
    var j := 0;
    while j < |keys|
      invariant 0 <= j <= |keys|
      invariant fallback.Some? && fallback == Resolve(Some(c.en), keys[..j])
    {
      ResolveSnoc(Some(c.en), keys, j);
      fallback := Step(fallback, keys[j]);
      if fallback.None? {
        ResolveBreaks(Some(c.en), keys, j + 1);
        return Leaf(key);
      }
      j := j + 1;
    }
    assert keys[..j] == keys;
    r := Pick(fallback, key);
  }

  lemma ResolveSnoc(n: Option<Node>, path: seq<string>, i: int)
    requires 0 <= i < |path|
    ensures Resolve(n, path[..i + 1]) == Step(Resolve(n, path[..i]), path[i])
  {
    assert path[..i + 1] == path[..i] + [path[i]];
    ResolveAppend(n, path[..i], [path[i]]);
  }

  lemma ResolveBreaks(n: Option<Node>, path: seq<string>, i: int)
    requires 0 <= i <= |path|
    requires Resolve(n, path[..i]) == None
    ensures Resolve(n, path) == None
  {
    assert path == path[..i] + path[i..];
    ResolveAppend(n, path[..i], path[i..]);
    ResolveFromNothing(path[i..]);
  }

  /** `"sidebar.dashboard".split('.')` is `["sidebar", "dashboard"]`. */
  lemma SplitSidebarKey()
    ensures Split("sidebar.dashboard", '.') == ["sidebar", "dashboard"]
  {
    assert "sidebar.dashboard" == "sidebar" + ['.'] + "dashboard";
    NoDot("sidebar");
    NoDot("dashboard");
    SplitPlainThenSep("sidebar", "dashboard", '.');
    SplitPlain("dashboard", '.');
  }

  lemma NoDot(s: string)
    requires forall i :: 0 <= i < |s| ==> 'a' <= s[i] <= 'z'
    ensures '.' !in s
  {
  }

  /** `t("sidebar.dashboard")` reads the `dashboard` entry of the `sidebar` group. */
  lemma TranslateTwoLevels(c: Catalog, lang: Language, shown: string)
    requires Root(c, lang).Group? && "sidebar" in Root(c, lang).children
    requires Root(c, lang).children["sidebar"].Group?
    requires "dashboard" in Root(c, lang).children["sidebar"].children
    requires Root(c, lang).children["sidebar"].children["dashboard"] == Leaf(shown)
    requires |shown| > 0
    ensures Translate(c, lang, "sidebar.dashboard") == Leaf(shown)
  {
    SplitSidebarKey();
    var root := Some(Root(c, lang));
    assert Resolve(root, ["sidebar", "dashboard"]) == Resolve(Step(root, "sidebar"), ["dashboard"]);
  }
}

=== FILE: navigation.dfy ===
/**
 * The navigation rules of the header (src/components/header.tsx), the two
 * sidebars (src/components/sidebar.tsx, src/components/main-sidebar.tsx) and the
 * staff row menu (src/components/staff/staff-data-table-row-actions.tsx): which
 * page title shows, when the back button appears, which links are highlighted,
 * and which entries only the admin account sees. Every path test is a plain
 * string-prefix test (`pathname.startsWith(href)`).
 */
module Navigation {
  import opened Wrappers
  import opened Entities
  import opened Auth
  import I18n

  datatype NavItem = NavItem(href: string, labelKey: string)

  const NavItems: seq<NavItem> := [
    NavItem("/dashboard", "sidebar.dashboard"),
    NavItem("/students", "sidebar.students"),
    NavItem("/staff", "sidebar.staff"),
    NavItem("/grades", "sidebar.grades"),
    NavItem("/positions", "sidebar.positions"),
    NavItem("/tests", "sidebar.tests"),
    NavItem("/expenses", "sidebar.expenses"),
    NavItem("/reports", "sidebar.reports")]

  const AdminNavItems: seq<NavItem> := [NavItem("/users", "sidebar.users")]

  const SecondaryNavItems: seq<NavItem> := [NavItem("/settings", "sidebar.settings")]

  /** The main sidebar's list: the same items, then the activity log. */
  const MainNavItems: seq<NavItem> := NavItems + [NavItem("/last-actions", "sidebar.lastActions")]

  /** The header searches every item, in this order. */
  const AllNavItems: seq<NavItem> := NavItems + AdminNavItems + SecondaryNavItems

  const FallbackTitle := "Smart School Manager"

  /** `pathname.startsWith(href)`. */
  predicate Under(path: string, href: string) {
    href <= path
  }

  /** `items.find(item => pathname.startsWith(item.href))`. */
  function FirstUnder(items: seq<NavItem>, path: string): (r: Option<NavItem>)
    ensures r.None? <==> forall i :: 0 <= i < |items| ==> !Under(path, items[i].href)
    ensures r.Some? ==> exists i :: 0 <= i < |items| && items[i] == r.value && Under(path, r.value.href) &&
                          forall k :: 0 <= k < i ==> !Under(path, items[k].href)
  {
    if items == [] then None
    else if Under(path, items[0].href) then Some(items[0])
    else
      var r := FirstUnder(items[1..], path);
      assert r.Some? ==> exists i :: 0 <= i < |items[1..]| && items[1..][i] == r.value && Under(path, r.value.href) &&
                          forall k :: 0 <= k < i ==> !Under(path, items[1..][k].href);
      assert r.Some? ==> exists i :: 1 <= i < |items| && items[i] == r.value && Under(path, r.value.href) &&
                          forall k :: 0 <= k < i ==> !Under(path, items[k].href);
      r
  }

  /** The header's title key: the first item the path lies under, else the app name. */
  function TitleKey(path: string): (r: string)
    ensures (forall i :: 0 <= i < |AllNavItems| ==> !Under(path, AllNavItems[i].href)) ==> r == FallbackTitle
    ensures (exists i :: 0 <= i < |AllNavItems| && Under(path, AllNavItems[i].href)) ==>
              exists i :: 0 <= i < |AllNavItems| && Under(path, AllNavItems[i].href) && r == AllNavItems[i].labelKey &&
                forall k :: 0 <= k < i ==> !Under(path, AllNavItems[k].href)
  {
    match FirstUnder(AllNavItems, path)
    case None => FallbackTitle
    case Some(item) => if item.labelKey != "" then item.labelKey else FallbackTitle
  }

  /** The back button shows on a page strictly below some item's page. */
  predicate IsSubPage(path: string) {
    exists i :: 0 <= i < |AllNavItems| && Under(path, AllNavItems[i].href) && path != AllNavItems[i].href
  }

  /** A sub-page always has a title from the menu, never the app name. */
  lemma SubPageHasMenuTitle(path: string)
    requires IsSubPage(path)
    ensures TitleKey(path) != FallbackTitle
  {
    var i :| 0 <= i < |AllNavItems| && Under(path, AllNavItems[i].href) && path != AllNavItems[i].href;
    var j :| 0 <= j < |AllNavItems| && Under(path, AllNavItems[j].href) && TitleKey(path) == AllNavItems[j].labelKey &&
               forall k :: 0 <= k < j ==> !Under(path, AllNavItems[k].href);
    LabelKeysAreNotFallback(j);
  }

  lemma LabelKeysAreNotFallback(j: int)
    requires 0 <= j < |AllNavItems|
    ensures AllNavItems[j].labelKey != FallbackTitle
  {
    assert AllNavItems[j].labelKey[0] == 's' && FallbackTitle[0] == 'S';
  }

  /** `/staffing` lies under `/staff`: it gets the staff title and a back button. */
  lemma StaffingCountsAsStaff()
    ensures TitleKey("/staffing") == "sidebar.staff"
    ensures IsSubPage("/staffing")
  {
    var path := "/staffing";
    assert Under(path, AllNavItems[2].href);
    assert !Under(path, AllNavItems[0].href) && !Under(path, AllNavItems[1].href) by {
      assert path[1] != "/dashboard"[1] && path[3] != "/students"[3];
    }
    assert FirstUnder(AllNavItems, path) == Some(AllNavItems[2]) by {
      assert AllNavItems[1..][1..] == AllNavItems[2..];
    }
    assert path != AllNavItems[2].href;
  }

  /** No page sits under the root path `/`: it shows the app name and no back button. */
  lemma RootHasAppTitle()
    ensures TitleKey("/") == FallbackTitle
    ensures !IsSubPage("/")
  {
    forall i | 0 <= i < |AllNavItems|
      ensures !Under("/", AllNavItems[i].href)
    {
      assert |AllNavItems[i].href| > 1;
    }
  }

  // ---- menus ----

  /** One rendered link: its item and whether it is highlighted. */
  datatype Link = Link(item: NavItem, active: bool)

  function Render(items: seq<NavItem>, path: string): (r: seq<Link>)
    ensures |r| == |items|
    ensures forall i :: 0 <= i < |r| ==> r[i].item == items[i] && (r[i].active <==> Under(path, items[i].href))
  {
    if items == [] then [] else [Link(items[0], Under(path, items[0].href))] + Render(items[1..], path)
  }

  /** `user?.role === 'admin' && user.username === 'Admin'`. */
  predicate ShowsAdminItems(user: Option<User>) {
    user.Some? && user.value.role == Admin && user.value.username == AdminUsername
  }

  /** A menu: the main links, then (for the admin account) the admin links, and the bottom links. */
  datatype Menu = Menu(main: seq<Link>, bottom: seq<Link>)

  /** The header's mobile menu and the narrow sidebar render the same menu. */
  function HeaderMenu(user: Option<User>, path: string): (m: Menu)
    ensures |m.main| == |NavItems| + (if ShowsAdminItems(user) then |AdminNavItems| else 0)
    ensures forall i :: 0 <= i < |NavItems| ==> m.main[i].item == NavItems[i]
    ensures ShowsAdminItems(user) ==> m.main[|NavItems|].item == AdminNavItems[0]
    ensures m.bottom == Render(SecondaryNavItems, path)
    ensures forall i :: 0 <= i < |m.main| ==> (m.main[i].active <==> Under(path, m.main[i].item.href))
  {
    Menu(Render(NavItems + (if ShowsAdminItems(user) then AdminNavItems else []), path), Render(SecondaryNavItems, path))
  }

  function Sidebar(user: Option<User>, path: string): (m: Menu)
    ensures m == HeaderMenu(user, path)
  {
    Menu(Render(NavItems + (if ShowsAdminItems(user) then AdminNavItems else []), path), Render(SecondaryNavItems, path))
  }

  /** The wide sidebar: `isOpen` chooses the width and the link layout only. */
  datatype SidebarView = SidebarView(wide: bool, menu: Menu)

  function MainSidebar(role: Option<Role>, username: Option<string>, isOpen: bool, path: string): (v: SidebarView)
    ensures v.wide == isOpen
    ensures |v.menu.main| == |MainNavItems| + (if role == Some(Admin) && username == Some(AdminUsername) then 1 else 0)
    ensures forall i :: 0 <= i < |MainNavItems| ==> v.menu.main[i].item == MainNavItems[i]
    ensures v.menu.main[|MainNavItems| - 1].item.href == "/last-actions"
    ensures |v.menu.main| > |MainNavItems| ==> v.menu.main[|MainNavItems|].item == NavItem("/users", "sidebar.users")
    ensures forall i :: 0 <= i < |v.menu.main| ==> (v.menu.main[i].active <==> Under(path, v.menu.main[i].item.href))
    ensures v.menu.bottom == Render(SecondaryNavItems, path)
  {
    var admin := role == Some(Admin) && username == Some(AdminUsername);
    SidebarView(isOpen, Menu(Render(MainNavItems + (if admin then AdminNavItems else []), path), Render(SecondaryNavItems, path)))
  }

  /** Opening or closing the wide sidebar never changes which links appear or which is highlighted. */
  lemma OpenOnlyChangesLayout(role: Option<Role>, username: Option<string>, path: string)
    ensures MainSidebar(role, username, true, path).menu == MainSidebar(role, username, false, path).menu
  {
  }

  /**
   * The layout passes the signed-in user's role and name, so the wide sidebar
   * gates the admin links exactly as the header does.
   */
  lemma MainSidebarGateAgrees(user: User, path: string)
    ensures (|MainSidebar(Some(user.role), Some(user.username), true, path).menu.main| > |MainNavItems|)
              <==> ShowsAdminItems(Some(user))
  {
  }

  /** Only signing in with the admin credentials shows the admin links. */
  lemma AdminLinksOnlyForAdminLogin(state: AuthState, username: string, password: string)
    requires !ShowsAdminItems(state)
    ensures ShowsAdminItems(AfterLogin(state, username, password)) <==>
              (username == AdminUsername && password == AdminPassword)
  {
    assert AdminUsername != VisitorUsername by {
      assert AdminUsername[0] != VisitorUsername[0];
    }
  }

  /** The app-name title is shown as the key itself when no catalog has an entry of that name. */
  lemma FallbackTitleShowsItself(c: I18n.Catalog, lang: I18n.Language)
    requires I18n.Root(c, lang).Group? && FallbackTitle !in I18n.Root(c, lang).children
    requires c.en.Group? && FallbackTitle !in c.en.children
    ensures I18n.Translate(c, lang, FallbackTitle) == I18n.Leaf(FallbackTitle)
  {
    assert '.' !in FallbackTitle;
    I18n.SplitPlain(FallbackTitle, '.');
    var keys := I18n.Split(FallbackTitle, '.');
    assert keys == [FallbackTitle];
    assert I18n.Resolve(Some(I18n.Root(c, lang)), keys) == None by {
      assert I18n.Step(Some(I18n.Root(c, lang)), FallbackTitle) == None;
      assert keys[1..] == [];
    }
    assert I18n.Resolve(Some(c.en), keys) == None by {
      assert I18n.Step(Some(c.en), FallbackTitle) == None;
      assert keys[1..] == [];
    }
  }

  // ---- the staff row menu ----

  datatype StaffAction = ViewProfile(href: string) | EditStaff | DeleteStaff

  /** The row menu: the profile link for everyone, edit and delete for an admin role. */
  function StaffRowActions(user: Option<User>, staff: Staff): (r: seq<StaffAction>)
    ensures |r| >= 1 && r[0] == ViewProfile("/staff/" + staff.id)
    ensures EditStaff in r <==> user.Some? && user.value.role == Admin
    ensures DeleteStaff in r <==> user.Some? && user.value.role == Admin
    ensures forall i :: 1 <= i < |r| ==> !r[i].ViewProfile?
  {
    [ViewProfile("/staff/" + staff.id)] + (if user.Some? && user.value.role == Admin then [EditStaff, DeleteStaff] else [])
  }

  /** The callback a menu entry invokes. */
  datatype Callback = FollowLink(href: string) | OnEdit | OnDelete

  function Dispatch(a: StaffAction): (c: Callback)
    ensures a.EditStaff? <==> c == OnEdit
    ensures a.DeleteStaff? <==> c == OnDelete
    ensures a.ViewProfile? <==> c.FollowLink?
    ensures a.ViewProfile? ==> c == FollowLink(a.href)
  {
    match a
    case ViewProfile(href) => FollowLink(href)
    case EditStaff => OnEdit
    case DeleteStaff => OnDelete
  }

  /**
   * The row menu checks the role only, the sidebars the role and the name; for
   * any user the login can produce the two gates agree.
   */
  lemma RowMenuGateAgrees(username: string, password: string, staff: Staff)
    requires Login(username, password).LoggedIn?
    ensures var user := Some(Login(username, password).user);
            (EditStaff in StaffRowActions(user, staff)) <==> ShowsAdminItems(user)
  {
  }
}

=== FILE: sorting.dfy ===
/**
 * The sequence operations the screens build their lists from: `filter`, the
 * stable `sort` of JavaScript arrays (ordered here by an integer key),
 * `slice(0, k)` and `find`.
 */
module Sorting {
  import opened Wrappers

  predicate SortedBy<T>(s: seq<T>, key: T -> int) {
    forall i, j :: 0 <= i < j < |s| ==> key(s[i]) <= key(s[j])
  }

  /** `s.filter(p)`: keeps, in order, the elements satisfying `p`. */
  function Filter<T>(s: seq<T>, p: T -> bool): (r: seq<T>)
    ensures |r| <= |s|
    ensures forall i :: 0 <= i < |r| ==> p(r[i])
  {
    if s == [] then []
    else (if p(s[0]) then [s[0]] else []) + Filter(s[1..], p)
  }

  /** Every element satisfying `p` is kept as often as it occurs, and nothing else is. */
  lemma {:induction false} FilterCounts<T(!new)>(s: seq<T>, p: T -> bool)
    ensures forall x :: multiset(Filter(s, p))[x] == if p(x) then multiset(s)[x] else 0
  {
    if s != [] {
      FilterCounts(s[1..], p);
      assert s == [s[0]] + s[1..];
    }
  }

  lemma {:induction false} FilterSubMultiset<T>(s: seq<T>, p: T -> bool)
    ensures multiset(Filter(s, p)) <= multiset(s)
  {
    if s != [] {
      FilterSubMultiset(s[1..], p);
      assert s == [s[0]] + s[1..];
    }
  }

  /**
   * The first `k` of the filtered, sorted elements are input elements that satisfy
   * `p`, taken no more often than they occur.
   */
  lemma TakeOfSortedFilter<T>(s: seq<T>, p: T -> bool, key: T -> int, k: nat)
    ensures var r := Take(SortBy(Filter(s, p), key), k);
            && multiset(r) <= multiset(s)
            && forall i :: 0 <= i < |r| ==> p(r[i])
  {
    var f := Filter(s, p);
    var sorted := SortBy(f, key);
    var r := Take(sorted, k);
    FilterSubMultiset(s, p);
    TakeSortedIsLeast(sorted, k, key);
    forall i | 0 <= i < |r|
      ensures p(r[i])
    {
      assert r[i] == sorted[i];
      assert sorted[i] in multiset(f);
      var j :| 0 <= j < |f| && f[j] == r[i];
    }
  }

  /** An element is kept exactly when it occurs in the input and satisfies `p`. */
  lemma {:induction false} FilterMembers<T(!new)>(s: seq<T>, p: T -> bool)
    ensures forall x :: x in Filter(s, p) <==> x in s && p(x)
  {
    FilterCounts(s, p);
    forall x
      ensures x in Filter(s, p) <==> x in s && p(x)
    {
      assert x in Filter(s, p) <==> x in multiset(Filter(s, p));
      assert x in s <==> x in multiset(s);
    }
  }

  /** Filtering keeps a sorted sequence sorted. */
  lemma {:induction false} FilterSorted<T(!new)>(s: seq<T>, p: T -> bool, key: T -> int)
    requires SortedBy(s, key)
    ensures SortedBy(Filter(s, p), key)
  {
    if s != [] {
      FilterSorted(s[1..], p, key);
      var rest := Filter(s[1..], p);
      if p(s[0]) {
        FilterMembers(s[1..], p);
        forall i | 0 <= i < |rest|
          ensures key(s[0]) <= key(rest[i])
        {
          assert rest[i] in s[1..];
          var j :| 0 <= j < |s[1..]| && s[1..][j] == rest[i];
          assert s[j + 1] == rest[i];
        }
      }
    }
  }

  /** Nothing is kept when no element can satisfy `p`. */
  lemma {:induction false} FilterNone<T>(s: seq<T>, p: T -> bool)
    requires forall x :: !p(x)
    ensures Filter(s, p) == []
  {
    if s != [] {
      FilterNone(s[1..], p);
    }
  }

  /** Filtering distributes over concatenation, so kept elements stay in input order. */
  lemma {:induction false} FilterAppend<T>(a: seq<T>, b: seq<T>, p: T -> bool)
    ensures Filter(a + b, p) == Filter(a, p) + Filter(b, p)
  {
    if a != [] {
      assert (a + b)[0] == a[0];
      assert (a + b)[1..] == a[1..] + b;
      FilterAppend(a[1..], b, p);
      assert Filter(a + b, p) == (if p(a[0]) then [a[0]] else []) + (Filter(a[1..], p) + Filter(b, p));
    } else {
      assert a + b == b;
    }
  }

  /** Inserts `x` after every element whose key is not greater, keeping `s` sorted. */
  function Insert<T>(x: T, s: seq<T>, key: T -> int): (r: seq<T>)
    requires SortedBy(s, key)
    ensures |r| == |s| + 1
    ensures SortedBy(r, key)
    ensures multiset(r) == multiset(s) + multiset{x}
  {
    if s == [] || key(x) < key(s[0]) then [x] + s
    else
      SortedTail(s, key);
      var rest := Insert(x, s[1..], key);
      InsertStep(x, s, rest, key);
      [s[0]] + rest
  }

  lemma SortedTail<T>(s: seq<T>, key: T -> int)
    requires SortedBy(s, key) && s != []
    ensures SortedBy(s[1..], key)
  {
    forall a, b | 0 <= a < b < |s[1..]|
      ensures key(s[1..][a]) <= key(s[1..][b])
    {
      assert s[1..][a] == s[a + 1] && s[1..][b] == s[b + 1];
    }
  }

  /** Past the head of `s`: the head stays in front of the insertion into the rest. */
  lemma InsertStep<T>(x: T, s: seq<T>, rest: seq<T>, key: T -> int)
    requires SortedBy(s, key) && s != [] && key(s[0]) <= key(x)
    requires SortedBy(rest, key)
    requires multiset(rest) == multiset(s[1..]) + multiset{x}
    ensures SortedBy([s[0]] + rest, key)
    ensures multiset([s[0]] + rest) == multiset(s) + multiset{x}
  {
    assert s == [s[0]] + s[1..];
    forall i | 0 <= i < |rest|
      ensures key(s[0]) <= key(rest[i])
    {
      assert rest[i] in multiset(rest);
      if rest[i] != x {
        assert rest[i] in multiset(s[1..]);
        var j :| 0 <= j < |s[1..]| && s[1..][j] == rest[i];
        assert s[j + 1] == rest[i];
      }
    }
  }

  /**
   * Stable insertion sort by ascending key: each element is inserted after the
   * earlier ones with an equal key, as JavaScript's stable `Array.prototype.sort`
   * orders elements its comparator calls equal.
   */
  function SortBy<T>(s: seq<T>, key: T -> int): (r: seq<T>)
    ensures |r| == |s|
    ensures SortedBy(r, key)
    ensures multiset(r) == multiset(s)
  {
    if s == [] then []
    else
      assert s == s[..|s| - 1] + [s[|s| - 1]];
      Insert(s[|s| - 1], SortBy(s[..|s| - 1], key), key)
  }

  /** The elements whose key is `k`. */
  function HasKey<T>(key: T -> int, k: int): T -> bool {
    (x: T) => key(x) == k
  }

  /** A filter that no element of `s` satisfies keeps nothing of `s`. */
  lemma {:induction false} FilterNoneOf<T>(s: seq<T>, p: T -> bool)
    requires forall i :: 0 <= i < |s| ==> !p(s[i])
    ensures Filter(s, p) == []
  {
    if s != [] {
      assert forall i :: 0 <= i < |s[1..]| ==> s[1..][i] == s[i + 1];
      FilterNoneOf(s[1..], p);
    }
  }

  /** Inserting `x` puts it after every element with the same key. */
  lemma {:induction false} InsertAfterEqualKeys<T>(x: T, t: seq<T>, key: T -> int, k: int)
    requires SortedBy(t, key)
    ensures Filter(Insert(x, t, key), HasKey(key, k)) ==
              Filter(t, HasKey(key, k)) + (if key(x) == k then [x] else [])
  {
    var p := HasKey(key, k);
    if t == [] {
      assert Insert(x, t, key) == [x];
      assert Filter([x], p) == (if p(x) then [x] else []) + Filter([x][1..], p);
    } else if key(x) < key(t[0]) {
      assert Insert(x, t, key) == [x] + t;
      assert ([x] + t)[1..] == t;
      if key(x) == k {
        FilterNoneOf(t, p);
      }
    } else {
      SortedTail(t, key);
      InsertAfterEqualKeys(x, t[1..], key, k);
      var rest := Insert(x, t[1..], key);
      assert Insert(x, t, key) == [t[0]] + rest;
      assert ([t[0]] + rest)[1..] == rest;
    }
  }

  /**
   * `SortBy` is stable: the elements sharing any one key come out in the order
   * they had in the input.
   */
  lemma {:induction false} SortByStable<T>(s: seq<T>, key: T -> int, k: int)
    ensures Filter(SortBy(s, key), HasKey(key, k)) == Filter(s, HasKey(key, k))
  {
    if s != [] {
      var p := HasKey(key, k);
      var init, last := s[..|s| - 1], s[|s| - 1];
      assert s == init + [last];
      var sorted := SortBy(init, key);
      var tail := if key(last) == k then [last] else [];
      assert SortBy(s, key) == Insert(last, sorted, key);
      InsertAfterEqualKeys(last, sorted, key, k);
      SortByStable(init, key, k);
      assert Filter(SortBy(s, key), p) == Filter(init, p) + tail;
      FilterSingle(last, p);
      FilterAppend(init, [last], p);
    }
  }

  lemma FilterSingle<T>(x: T, p: T -> bool)
    ensures Filter([x], p) == if p(x) then [x] else []
  {
    assert [x][1..] == [];
  }

  predicate StrictlySortedBy<T>(s: seq<T>, key: T -> int) {
    forall i, j :: 0 <= i < j < |s| ==> key(s[i]) < key(s[j])
  }

  /**
   * A sorted sequence is determined by its elements when their keys are
   * distinct: any sorted permutation of a strictly ascending sequence is that
   * sequence. So `SortBy` returns the one ascending arrangement.
   */
  lemma {:induction false} SortedPermutationUnique<T>(r: seq<T>, t: seq<T>, key: T -> int)
    requires SortedBy(r, key)
    requires StrictlySortedBy(t, key)
    requires multiset(r) == multiset(t)
    ensures r == t
  {
    assert |r| == |multiset(r)| == |multiset(t)| == |t|;
    if r != [] {
      SameHead(r, t, key);
      assert r == [r[0]] + r[1..];
      assert t == [t[0]] + t[1..];
      assert multiset(r[1..]) == multiset(r) - multiset{r[0]};
      assert multiset(t[1..]) == multiset(t) - multiset{r[0]};
      SortedTail(r, key);
      StrictTail(t, key);
      SortedPermutationUnique(r[1..], t[1..], key);
    }
  }

  lemma SameHead<T>(r: seq<T>, t: seq<T>, key: T -> int)
    requires SortedBy(r, key) && StrictlySortedBy(t, key)
    requires multiset(r) == multiset(t) && r != [] && t != []
    ensures r[0] == t[0]
  {
    assert r[0] in multiset(t);
    var j :| 0 <= j < |t| && t[j] == r[0];
    assert t[0] in multiset(r);
    var i :| 0 <= i < |r| && r[i] == t[0];
    assert key(r[0]) <= key(r[i]);
    LeastKeyIsFirst(t, j, key);
  }

  lemma LeastKeyIsFirst<T>(t: seq<T>, j: int, key: T -> int)
    requires StrictlySortedBy(t, key) && 0 <= j < |t| && key(t[j]) <= key(t[0])
    ensures j == 0
  {
  }

  lemma StrictTail<T>(s: seq<T>, key: T -> int)
    requires StrictlySortedBy(s, key) && s != []
    ensures StrictlySortedBy(s[1..], key)
  {
    forall a, b | 0 <= a < b < |s[1..]|
      ensures key(s[1..][a]) < key(s[1..][b])
    {
      assert s[1..][a] == s[a + 1] && s[1..][b] == s[b + 1];
    }
  }

  /** One step of `Filter` at position `k` of `s`. */
  lemma FilterAt<T>(s: seq<T>, k: int, p: T -> bool)
    requires 0 <= k < |s|
    ensures Filter(s[k..], p) == (if p(s[k]) then [s[k]] else []) + Filter(s[k + 1..], p)
  {
    assert s[k..][1..] == s[k + 1..];
  }

  /** `s.find(p)`: the first element satisfying `p`, or undefined (`None`) when there is none. */
  function Find<T>(s: seq<T>, p: T -> bool): (r: Option<T>)
    ensures r.None? <==> forall i :: 0 <= i < |s| ==> !p(s[i])
    ensures r.Some? ==> exists i :: 0 <= i < |s| && s[i] == r.value && p(r.value) &&
                          forall k :: 0 <= k < i ==> !p(s[k])
  {
    if s == [] then None
    else if p(s[0]) then Some(s[0])
    else
      var r := Find(s[1..], p);
      assert r.Some? ==> exists i :: 0 <= i < |s[1..]| && s[1..][i] == r.value && p(r.value) &&
                          forall k :: 0 <= k < i ==> !p(s[1..][k]);
      assert r.Some? ==> exists i :: 1 <= i < |s| && s[i] == r.value && p(r.value) &&
                          forall k :: 0 <= k < i ==> !p(s[k]);
      r
  }

  /** `s.slice(0, k)`. */
  function Take<T>(s: seq<T>, k: nat): (r: seq<T>)
    ensures |r| == if |s| <= k then |s| else k
    ensures r <= s
  {
    if |s| <= k then s else s[..k]
  }

  /**
   * The first `k` elements of a sorted sequence are its `k` least: every element
   * left out has a key at least that of every element kept.
   */
  lemma TakeSortedIsLeast<T>(s: seq<T>, k: nat, key: T -> int)
    requires SortedBy(s, key)
    ensures SortedBy(Take(s, k), key)
    ensures multiset(Take(s, k)) <= multiset(s)
    ensures forall x :: x in multiset(s) - multiset(Take(s, k)) ==>
              forall i :: 0 <= i < |Take(s, k)| ==> key(Take(s, k)[i]) <= key(x)
  {
    var t := Take(s, k);
    var m := |t|;
    forall a, b | 0 <= a < b < m
      ensures key(t[a]) <= key(t[b])
    {
      assert t[a] == s[a] && t[b] == s[b];
    }
    assert s == t + s[m..];
    assert multiset(s) - multiset(t) == multiset(s[m..]);
    forall x | x in multiset(s) - multiset(t)
      ensures forall i :: 0 <= i < m ==> key(t[i]) <= key(x)
    {
      assert x in s[m..];
      var j :| 0 <= j < |s[m..]| && s[m..][j] == x;
      assert s[m + j] == x;
    }
  }
}

=== FILE: staff_forms.dfy ===
/**
 * Adding and editing a staff member
 * (src/components/dialogs/add-staff-dialog.tsx, src/components/dialogs/edit-staff-dialog.tsx).
 * The position chosen by id decides what an edit carries: a monthly position a
 * salary, falling back to the position's rate; an hourly one the weekday hours.
 */
module StaffForms {
  import opened Wrappers
  import opened Entities
  import opened Sorting

  /** `positions.find(p => p.id === id)`: the first position with that id. */
  function FindPosition(positions: seq<Position>, id: string): (r: Option<Position>)
    ensures r.None? <==> forall i :: 0 <= i < |positions| ==> positions[i].id != id
    ensures r.Some? ==> IsFirstWithId(positions, id, r.value)
  {
    Find(positions, (p: Position) => p.id == id)
  }

  /** `p` is the position with id `id` that comes first in the list. */
  predicate IsFirstWithId(positions: seq<Position>, id: string, p: Position) {
    exists i :: 0 <= i < |positions| && positions[i] == p && p.id == id &&
      forall k :: 0 <= k < i ==> positions[k].id != id
  }

  predicate ValidDayHours(h: int) {
    0 <= h <= MaxDayHalfHours
  }

  predicate ValidWeekHours(w: WeekHours) {
    ValidDayHours(w.mon) && ValidDayHours(w.tue) && ValidDayHours(w.wed) && ValidDayHours(w.thu) && ValidDayHours(w.fri)
  }

  /** The edit form's values; `salary` is absent when the field was left empty. */
  datatype StaffForm = StaffForm(fullName: string, positionId: string, salary: Option<int>, hoursWorked: Option<WeekHours>)

  predicate ValidStaffForm(f: StaffForm) {
    && |f.fullName| >= 1
    && |f.positionId| >= 1
    && (f.hoursWorked.Some? ==> ValidWeekHours(f.hoursWorked.value))
  }

  const NoHours := WeekHours(0, 0, 0, 0, 0)

  /** The edit form as opened for `s`; missing weekday hours open as zeros. */
  function EditPrefill(s: Staff): (f: StaffForm)
    ensures f.fullName == s.fullName && f.positionId == s.position.id && f.salary == s.salary
    ensures s.hoursWorked.None? ==> f.hoursWorked == Some(WeekHours(0, 0, 0, 0, 0))
    ensures s.hoursWorked.Some? ==> f.hoursWorked == s.hoursWorked
  {
    StaffForm(s.fullName, s.position.id, s.salary, Some(s.hoursWorked.GetOr(NoHours)))
  }

  /** The data an edit hands to the page; `None` fields are left out of the object. */
  datatype StaffUpdate = StaffUpdate(fullName: string, position: Position, salary: Option<int>, hoursWorked: Option<WeekHours>)

  /** `data.salary || position.rate`: an empty or zero salary falls back to the rate. */
  function SalaryOrRate(salary: Option<int>, rate: int): int {
    if salary.Some? && salary.value != 0 then salary.value else rate
  }

  /** The update built once the position is known. */
  function BuildUpdate(f: StaffForm, p: Position): (u: StaffUpdate)
    ensures u.fullName == f.fullName && u.position == p
    ensures p.kind == Monthly ==> u.hoursWorked.None? && u.salary.Some?
    ensures p.kind == Monthly && (f.salary.None? || f.salary == Some(0)) ==> u.salary == Some(p.rate)
    ensures p.kind == Monthly && f.salary.Some? && f.salary.value != 0 ==> u.salary == f.salary
    ensures p.kind == Hourly ==> u.salary.None? && u.hoursWorked == f.hoursWorked
  {
    if p.kind == Monthly then StaffUpdate(f.fullName, p, Some(SalaryOrRate(f.salary, p.rate)), None)
    else StaffUpdate(f.fullName, p, None, f.hoursWorked)
  }

  /** What submitting the edit form does. */
  datatype EditOutcome =
    | NoEdit                                     // validation failed, or no staff member is open
    | PositionMissing                            // `find(...)!` was undefined: reading `.type` throws
    | Updated(staffId: string, update: StaffUpdate)

  function SubmitEdit(staff: Option<Staff>, positions: seq<Position>, f: StaffForm): (r: EditOutcome)
    ensures r.Updated? <==> ValidStaffForm(f) && staff.Some? && FindPosition(positions, f.positionId).Some?
    ensures r.PositionMissing? <==> ValidStaffForm(f) && staff.Some? && FindPosition(positions, f.positionId).None?
    ensures r.Updated? ==> r.staffId == staff.value.id && r.update.position.id == f.positionId
    ensures r.Updated? ==> exists p :: IsFirstWithId(positions, f.positionId, p) && r.update == BuildUpdate(f, p)
  {
    if !ValidStaffForm(f) || staff.None? then NoEdit
    else match FindPosition(positions, f.positionId)
      case None => PositionMissing
      case Some(p) => Updated(staff.value.id, BuildUpdate(f, p))
  }

  /** Reopening a staff member on a monthly position and saving keeps a non-zero salary. */
  lemma EditRoundTripMonthly(s: Staff, positions: seq<Position>)
    requires |s.fullName| >= 1 && |s.position.id| >= 1
    requires s.hoursWorked.Some? ==> ValidWeekHours(s.hoursWorked.value)
    requires FindPosition(positions, s.position.id) == Some(s.position)
    requires s.position.kind == Monthly && s.salary.Some? && s.salary.value != 0
    ensures SubmitEdit(Some(s), positions, EditPrefill(s)) == Updated(s.id, StaffUpdate(s.fullName, s.position, s.salary, None))
  {
  }

  /** The add form's values. */
  datatype NewStaffForm = NewStaffForm(fullName: string, positionId: string)

  predicate ValidNewStaffForm(f: NewStaffForm) {
    |f.fullName| >= 1 && |f.positionId| >= 1
  }

  /**
   * A new staff member carries only a name and a position: no id, avatar, salary
   * or hours. An id matching no position leaves the position undefined.
   */
  datatype NewStaff = NewStaff(fullName: string, position: Option<Position>)

  function SubmitNewStaff(positions: seq<Position>, f: NewStaffForm): (r: Option<NewStaff>)
    ensures r.Some? <==> |f.fullName| >= 1 && |f.positionId| >= 1
    ensures r.Some? ==> r.value.fullName == f.fullName
    ensures r.Some? && r.value.position.Some? ==> IsFirstWithId(positions, f.positionId, r.value.position.value)
    ensures r.Some? ==> (r.value.position.None? <==> forall i :: 0 <= i < |positions| ==> positions[i].id != f.positionId)
  {
    if ValidNewStaffForm(f) then Some(NewStaff(f.fullName, FindPosition(positions, f.positionId))) else None
  }

  /** The hint under the position picker, shown once the picked id names a position. */
  function RateHint(positions: seq<Position>, selectedId: string): (r: Option<string>)
    ensures r.Some? <==> exists i :: 0 <= i < |positions| && positions[i].id == selectedId
    ensures r.Some? ==> (r.value == "Monthly Salary" <==> FindPosition(positions, selectedId).value.kind == Monthly)
    ensures r.Some? ==> (r.value == "Hourly Rate" <==> FindPosition(positions, selectedId).value.kind == Hourly)
  {
    match FindPosition(positions, selectedId)
    case None => None
    case Some(p) => Some(if p.kind == Monthly then "Monthly Salary" else "Hourly Rate")
  }

  /**
   * The staff page's `handleAddStaff`: the new member gets the id and avatar
   * the page supplies (`staff${Date.now()}`, not checked against the existing
   * ids) and is appended; everyone already listed stays as they were. A
   * member without a position cannot be listed (its row reads the position's fields),
   * so that case gives `None`.
   */
  function AddStaff(staff: seq<Staff>, n: NewStaff, id: string, avatarUrl: string): (r: Option<seq<Staff>>)
    ensures r.Some? <==> n.position.Some?
    ensures r.Some? ==> |r.value| == |staff| + 1 && r.value[..|staff|] == staff
    ensures r.Some? ==> r.value[|staff|] == Staff(id, n.fullName, n.position.value, avatarUrl, None, None, None)
  {
    match n.position
    case None => None
    case Some(p) => Some(staff + [Staff(id, n.fullName, p, avatarUrl, None, None, None)])
  }

  /**
   * Adding through the form appends one member with the typed name and the
   * first position carrying the picked id, and keeps the others.
   */
  lemma AddedStaffFromForm(staff: seq<Staff>, positions: seq<Position>, f: NewStaffForm, id: string, avatarUrl: string)
    requires ValidNewStaffForm(f)
    requires exists i :: 0 <= i < |positions| && positions[i].id == f.positionId
    ensures var r := AddStaff(staff, SubmitNewStaff(positions, f).value, id, avatarUrl);
            && r.Some? && |r.value| == |staff| + 1
            && (forall i :: 0 <= i < |staff| ==> r.value[i] == staff[i])
            && r.value[|staff|].id == id && r.value[|staff|].fullName == f.fullName
            && IsFirstWithId(positions, f.positionId, r.value[|staff|].position)
            && r.value[|staff|].salary.None? && r.value[|staff|].hoursWorked.None?
  {
    var n := SubmitNewStaff(positions, f).value;
    assert n.position.Some?;
    var r := AddStaff(staff, n, id, avatarUrl).value;
    forall i | 0 <= i < |staff|
      ensures r[i] == staff[i]
    {
      assert r[..|staff|][i] == r[i];
    }
  }
}

=== FILE: student_table.dfy ===
/**
 * The decisions of the students table (src/components/students/student-table.tsx):
 * the balance and status badges, which columns an account sees, and what the
 * status picker filters on.
 */
module StudentTable {
  import opened Wrappers
  import opened Entities
  import opened Dashboard

  datatype BadgeVariant = Destructive | Default | Secondary | Outline

  /** A badge's variant and whether it carries the green class. */
  datatype Badge = Badge(variant: BadgeVariant, green: bool)

  /** The balance badge: red for a debt, green for credit, grey for a settled account. */
  function BalanceBadge(balance: int): (b: Badge)
    ensures b.variant == Destructive <==> balance < 0
    ensures b.variant == Default <==> balance > 0
    ensures b.variant == Secondary <==> balance == 0
    ensures b.green <==> b.variant == Default
  {
    Badge(if balance < 0 then Destructive else if balance > 0 then Default else Secondary, balance > 0)
  }

  /** Every student on the dashboard's debtor card shows a red balance badge in the table. */
  lemma DebtorsShowDestructive(students: seq<Student>)
    ensures forall i :: 0 <= i < |TopDebtors(students)| ==>
              BalanceBadge(TopDebtors(students)[i].balance).variant == Destructive
  {
  }

  /** The status cell's text. */
  function StatusLabel(isArchived: bool): string {
    if isArchived then "Archived" else "Active"
  }

  function StatusBadge(isArchived: bool): (b: Badge)
    ensures !b.green
    ensures b.variant == Outline <==> StatusLabel(isArchived) == "Archived"
    ensures b.variant == Secondary <==> StatusLabel(isArchived) == "Active"
  {
    Badge(if isArchived then Outline else Secondary, false)
  }

  datatype Column = NameColumn | GradeColumn | BalanceColumn | FeeColumn | StatusColumn | ActionsColumn

  const BaseColumns: seq<Column> := [NameColumn, GradeColumn, BalanceColumn, FeeColumn, StatusColumn]

  /** The table's columns; only an admin gets the row-actions column, appended last. */
  function Columns(role: Option<Role>): (r: seq<Column>)
    ensures |r| == if role == Some(Admin) then |BaseColumns| + 1 else |BaseColumns|
    ensures r[..|BaseColumns|] == BaseColumns
    ensures ActionsColumn in r <==> role == Some(Admin)
  {
    if role == Some(Admin) then BaseColumns + [ActionsColumn] else BaseColumns
  }

  /**
   * The status picker's value mapped to a column filter value: `None` removes
   * the filter, `Some(b)` asks for `isArchived == b`.
   */
  function StatusChoice(value: string): (r: Option<bool>)
    ensures value == "all" <==> r.None?
    ensures value == "active" ==> r == Some(false)
    ensures value != "all" && value != "active" ==> r == Some(true)
  {
    if value == "all" then None else if value == "active" then Some(false) else Some(true)
  }

  /** The filter the status picker evidently intends: keep the rows whose flag equals the chosen one. */
  predicate StatusKeeps(filter: Option<bool>, s: Student) {
    filter.None? || filter.value == s.isArchived
  }

  /**
   * Picking "Active" or "Archived" keeps exactly the rows whose status cell reads
   * that word, and "All Statuses" keeps every row.
   */
  lemma StatusChoiceMatchesLabel(s: Student)
    ensures StatusKeeps(StatusChoice("active"), s) <==> StatusLabel(s.isArchived) == "Active"
    ensures StatusKeeps(StatusChoice("archived"), s) <==> StatusLabel(s.isArchived) == "Archived"
    ensures StatusKeeps(StatusChoice("all"), s)
  {
    assert "Active" != "Archived" by {
      assert "Active"[1] != "Archived"[1];
    }
  }

  /** What the status column's own filter function does with a row. */
  datatype FilterResult = Kept | Dropped | Throws

  /**
   * The status column's filter as written: it calls `.includes` on the filter
   * value, but the picker stores a boolean there, and a boolean has no
   * `includes` method. The table removes a filter only when its value is
   * undefined (or an empty string), so a boolean reaches this function.
   */
  function StatusFilterAsWritten(filter: Option<bool>, s: Student): (r: FilterResult)
    ensures r == Throws <==> filter.Some?
  {
    if filter.None? then Kept else Throws
  }

  /**
   * Picking "Active" makes the filter as written throw on every row, an active
   * student's included, where the intended filter keeps that student.
   */
  lemma StatusPickThrows(s: Student)
    requires !s.isArchived
    ensures StatusFilterAsWritten(StatusChoice("active"), s) == Throws
    ensures StatusFilter(StatusChoice("active"), s) == Kept
  {
  }

  /** The corrected filter: an equality test on the flag. */
  function StatusFilter(filter: Option<bool>, s: Student): (r: FilterResult)
    ensures r != Throws
    ensures r == Kept <==> StatusKeeps(filter, s)
  {
    if filter.None? || filter.value == s.isArchived then Kept else Dropped
  }
}

=== FILE: test_results.dfy ===
/**
 * The test-result dialog (src/components/dialogs/add-test-result-dialog.tsx):
 * the month options, the grade picker, the score rows a grade opens, and the
 * split of the submitted form into the test and its results.
 */
module TestResults {
  import opened Wrappers
  import opened Decimal
  import opened Entities
  import opened GradeLists
  import opened Sorting

  const MonthNames: seq<string> := [
    "January", "February", "March", "April", "May", "June",
    "July", "August", "September", "October", "November", "December"]

  /** `${year}` for the year of the current date. */
  function YearText(year: int): string {
    if year < 0 then "-" + NatToString(-year) else NatToString(year)
  }

  /** The twelve month options: each month name, a space, the current year. */
  function MonthOptions(year: int): (r: seq<string>)
    ensures |r| == 12
    ensures forall i :: 0 <= i < 12 ==> r[i] == MonthNames[i] + " " + YearText(year)
  {
    seq(12, i requires 0 <= i < 12 => MonthNames[i] + " " + YearText(year))
  }

  /** Every option starts with its month's name, then a space, then the year, which reads back. */
  lemma MonthOptionReadsBack(year: nat, i: int)
    requires 0 <= i < 12
    ensures var o := MonthOptions(year)[i];
            && |o| > |MonthNames[i]| && o[..|MonthNames[i]|] == MonthNames[i] && o[|MonthNames[i]|] == ' '
            && AllDigits(o[|MonthNames[i]| + 1..])
            && ParseDigits(o[|MonthNames[i]| + 1..]) == year
  {
    var o := MonthOptions(year)[i];
    var name := MonthNames[i];
    assert o == name + (" " + NatToString(year));
    assert o[..|name|] == name;
    assert o[|name| + 1..] == NatToString(year);
    ParseNatToString(year);
  }

  /** The options are pairwise different, so each is a distinct picker entry. */
  lemma MonthOptionsDistinct(year: int, i: int, j: int)
    requires 0 <= i < j < 12
    ensures MonthOptions(year)[i] != MonthOptions(year)[j]
  {
    MonthNamesDiffer(i, j);
    SameSuffixCancels(MonthNames[i], MonthNames[j], YearText(year));
  }

  /** Two options with the same year are equal only for equal month names. */
  lemma SameSuffixCancels(a: string, b: string, year: string)
    ensures a + " " + year == b + " " + year ==> a == b
  {
    if a + " " + year == b + " " + year {
      assert |a| == |b|;
      assert (a + " " + year)[..|a|] == a;
      assert (b + " " + year)[..|b|] == b;
    }
  }

  lemma MonthNamesDiffer(i: int, j: int)
    requires 0 <= i < j < 12
    ensures MonthNames[i] != MonthNames[j]
  {
    var n := MonthNames;
    assert n[0][..2] == "Ja" && n[1][..2] == "Fe" && n[2][..3] == "Mar" && n[3][..2] == "Ap";
    assert n[4][..3] == "May" && n[5][..3] == "Jun" && n[6][..3] == "Jul" && n[7][..2] == "Au";
    assert n[8][..2] == "Se" && n[9][..2] == "Oc" && n[10][..2] == "No" && n[11][..2] == "De";
  }

  /**
   * The month the form opens with, `months[new Date().getMonth()]`. The options'
   * year is read once, when the module loads (`loaded`); the month is read when
   * the form mounts (`mounted`).
   */
  function DefaultMonth(loaded: Dates.CivilDate, mounted: Dates.CivilDate): (r: string)
    ensures r in MonthOptions(loaded.year)
    ensures |r| > |MonthNames[mounted.month - 1]| && r[..|MonthNames[mounted.month - 1]|] == MonthNames[mounted.month - 1]
    ensures loaded.year == mounted.year ==> r == MonthOptions(mounted.year)[mounted.month - 1]
  {
    MonthOptions(loaded.year)[mounted.month - 1]
  }

  /**
   * A page loaded on the last day of a year and opened on the first day of the
   * next shows January of the old year, which is not among that year's options.
   */
  lemma DefaultMonthAcrossNewYear()
    ensures DefaultMonth(Dates.Date(2024, 12, 31), Dates.Date(2025, 1, 1)) == "January 2024"
    ensures "January 2024" !in MonthOptions(2025)
  {
    assert YearText(2024) == "2024";
    assert YearText(2025) == "2025";
    forall i | 0 <= i < 12
      ensures MonthOptions(2025)[i] != "January 2024"
    {
      var o := MonthOptions(2025)[i];
      if |o| == |"January 2024"| {
        assert o[|o| - 1] == '5';
      }
    }
  }

  /** One score row of the form. */
  datatype ResultRow = ResultRow(studentId: string, studentName: string, score: int)

  /** `students.filter(s => s.grade === grade)`. */
  function StudentsInGrade(students: seq<Student>, grade: int): (r: seq<Student>)
    ensures |r| <= |students|
    ensures forall i :: 0 <= i < |r| ==> r[i].grade == grade
  {
    Filter(students, InGrade(grade))
  }

  function InGrade(grade: int): Student -> bool {
    (s: Student) => s.grade == grade
  }

  /** A student is selected exactly when they are in the input with that grade. */
  lemma StudentsInGradeMembers(students: seq<Student>, grade: int, s: Student)
    ensures s in StudentsInGrade(students, grade) <==> s in students && s.grade == grade
  {
    FilterMembers(students, InGrade(grade));
  }

  /** Selection keeps input order: it distributes over concatenation. */
  lemma StudentsInGradeAppend(a: seq<Student>, b: seq<Student>, grade: int)
    ensures StudentsInGrade(a + b, grade) == StudentsInGrade(a, grade) + StudentsInGrade(b, grade)
  {
    FilterAppend(a, b, InGrade(grade));
  }

  /** `.map(s => ({ studentId: s.id, studentName: s.fullName, score: 0 }))`. */
  function RowsOf(students: seq<Student>): (r: seq<ResultRow>)
    ensures |r| == |students|
    ensures forall i :: 0 <= i < |r| ==> r[i] == ResultRow(students[i].id, students[i].fullName, 0)
  {
    if students == [] then [] else [ResultRow(students[0].id, students[0].fullName, 0)] + RowsOf(students[1..])
  }

  /** The score rows a grade opens: one per student of that grade, in input order, each scored 0. */
  function GradeRows(students: seq<Student>, grade: int): (r: seq<ResultRow>)
    ensures |r| == |StudentsInGrade(students, grade)|
    ensures forall i :: 0 <= i < |r| ==> r[i].score == 0
  {
    RowsOf(StudentsInGrade(students, grade))
  }

  /** Every grade the picker offers opens at least one row. */
  lemma OfferedGradeHasRows(students: seq<Student>, g: int)
    requires g in UniqueGrades(GradesOf(students))
    ensures |GradeRows(students, g)| > 0
  {
    var grades := GradesOf(students);
    assert g in grades;
    var i :| 0 <= i < |grades| && grades[i] == g;
    assert students[i] in students;
    StudentsInGradeMembers(students, g, students[i]);
  }

  /** `parseInt(value, 10)` for a picker value; a value that is not a decimal numeral gives NaN (`None`). */
  function ParseGrade(value: string): (r: Option<nat>)
    ensures r.Some? <==> |value| >= 1 && AllDigits(value)
  {
    if |value| >= 1 && AllDigits(value) then Some(ParseDigits(value)) else None
  }

  /** The picker's state after a choice: the selected grade and the rows it opens. */
  datatype GradeChoice = GradeChoice(selected: Option<int>, rows: seq<ResultRow>)

  /** `handleGradeChange`: a NaN grade equals no student's grade, so it opens no rows. */
  function HandleGradeChange(students: seq<Student>, value: string): (r: GradeChoice)
    ensures r.selected.None? ==> r.rows == []
    ensures r.selected.Some? ==> r.rows == GradeRows(students, r.selected.value)
  {
    match ParseGrade(value)
    case None => GradeChoice(None, [])
    case Some(g) => GradeChoice(Some(g), GradeRows(students, g))
  }

  /** Choosing an offered grade (its `toString()` value) selects that grade and opens its rows. */
  lemma ChoosingOfferedGrade(students: seq<Student>, g: nat)
    requires g in UniqueGrades(GradesOf(students))
    ensures HandleGradeChange(students, NatToString(g)) == GradeChoice(Some(g), GradeRows(students, g))
    ensures |HandleGradeChange(students, NatToString(g)).rows| > 0
  {
    ParseNatToString(g);
    OfferedGradeHasRows(students, g);
  }

  predicate ValidScore(score: int) {
    0 <= score <= 100
  }

  /** The form's values; `grade` is `None` until a grade is chosen, or after a NaN choice. */
  datatype TestForm = TestForm(month: string, grade: Option<int>, results: seq<ResultRow>)

  predicate ValidTestForm(f: TestForm) {
    && |f.month| >= 1
    && f.grade.Some? && f.grade.value >= 1
    && forall i :: 0 <= i < |f.results| ==> ValidScore(f.results[i].score)
  }

  /** The test handed to the page, without an id. */
  datatype NewTest = NewTest(month: string, grade: int)

  /**
   * Saving: the button is disabled while no grade (or grade 0) is selected, the
   * schema must accept the form, and the form is split into the test and its rows.
   */
  function SubmitTest(selected: Option<int>, f: TestForm): (r: Option<(NewTest, seq<ResultRow>)>)
    ensures r.Some? <==> selected.Some? && selected.value != 0 && ValidTestForm(f)
    ensures r.Some? ==> r.value.0 == NewTest(f.month, f.grade.value) && r.value.1 == f.results
    ensures r.Some? ==> forall i :: 0 <= i < |r.value.1| ==> 0 <= r.value.1[i].score <= 100
  {
    if selected.Some? && selected.value != 0 && ValidTestForm(f) then Some((NewTest(f.month, f.grade.value), f.results))
    else None
  }

  /** The rows a grade opens are accepted as they are: every score starts at 0, inside [0, 100]. */
  lemma FreshRowsAreValid(students: seq<Student>, month: string, g: int)
    requires |month| >= 1 && g >= 1
    ensures SubmitTest(Some(g), TestForm(month, Some(g), GradeRows(students, g))) ==
              Some((NewTest(month, g), GradeRows(students, g)))
  {
  }
}

=== FILE: wrappers.dfy ===
/** Optional values: the model's stand-in for the source's `null` and `undefined`. */
module Wrappers {

  datatype Option<+T> = None | Some(value: T) {

    /** The wrapped value, or `default` when there is none (the source's `x ?? default`). */
    function GetOr(default: T): T {
      match this
      case Some(v) => v
      case None => default
    }
  }
}
